=== FILE: README.md ===
# Music collection demo: a Dafny model of its core

This project models the parts of a small Python teaching repository about a
music collection that compute results:

- the `Band` class (`music/band.py`): construction with name validation and
  the `BandNameError` it raises, the four-way `__str__`, `__eq__` over the
  instance attribute dictionary, the `is_date_valid` range check and the
  `__iter__`/`__next__` iterator protocol;
- two dictionary helpers (`python/dictionaries.py`): `sort_dictionary`,
  which rebuilds a dictionary from its items sorted by key or by value, and
  `dict_comprehension`, which builds `{k: v for k, v in zip(l1, l2)}`;
- the function demos (`python/functions.py`): the closures returned by
  `return_function` and `return_function_with_args`, the line
  `use_all_categories_of_args` prints, and the string
  `demonstrate_annotations` returns;
- the decorator demos (`python/decorators.py`): the wrapper of
  `a_very_simple_decorator` and the summary line of the `band_details`
  wrapper.

Modules:

| file | module | contents |
|---|---|---|
| wrappers.dfy | `Wrappers` | `Option` and `Result` |
| strings.dfy | `Strings` | `str.join`, `str.split(sep)`, `str.split()`, `str(int)` and their round trips |
| pyvalues.dfy | `PyValues` | keyword-argument values, truthiness, `str()`, `dict.get` |
| dates.dfy | `Dates` | `datetime.date` validity and ordering, with the day number (`toordinal`) as an independent reference |
| sorting.dfy | `Sorting` | a stable sort, `sorted(items, key=…)` |
| band.dfy | `Bands` | the `Band` class and its exceptions |
| dictionaries.dfy | `Dictionaries` | insertion-ordered dictionaries, `sort_dictionary` and `dict_comprehension` |
| functions.dfy | `Functions` | the function demos |
| decorators.dfy | `Decorators` | the decorator demos |

Modelling choices:

- A Python function that raises is a function returning `Err(exception)`.
- A printing function is a function returning the printed lines with its
  value (`Decorators.Call`).
- A dictionary is the sequence of its items in insertion order, with
  distinct keys.
- Musicians are values of a type parameter. The two functions a band's
  string form relies on are passed in as parameters: `str(musician)`
  (`show`) and `format_date` (`fmt`).
- The band's private iteration counter `_Band__i` is `cursor: Option<nat>`.
  It is absent until `__iter__` first runs, and from then on it is one more
  entry of `__dict__`.

The model follows the code where it is easy to misread:

- `Band.__str__` with members and an end date but no start date prints
  `name m; disbanded: e`, without the parentheses the other member branches
  use (music/band.py:58-59).
- `is_date_valid`'s docstring names 1 January 1960 as the earliest date. The
  code compares against 5 July 1954 (music/band.py:86).
- `__eq__` compares the whole `__dict__`, so a band that has been iterated
  also compares its cursor (music/band.py:78, 100). Equality is therefore not
  just over name, members and dates.
- In `use_all_categories_of_args`, the `; disbanded: <end>` text is appended
  even when there is no `formed:` part, which leaves a line such as
  `B (active); ; disbanded: 1968` (python/functions.py:98-99).

## Model

| member | source | states |
|---|---|---|
| Bands.New | music/band.py:35-43 | Construction raises `BandNameError` exactly when the name is not a string or is shorter than two characters. The error carries the rejected name and the message `'<name>' (must be min 2 characters long)`. Otherwise the band stores the name, members and both dates, and has no iteration counter yet. |
| Bands.Head | music/band.py:49 | `str(m).split(', ')[0]` is a prefix of the member's text that contains no `, `. It is either the whole text or stops right before the first `, `. |
| Bands.Heads | music/band.py:49 | There is one head per member, in member order, and each is the head of that member's display text. |
| Bands.Suffix | music/band.py:52-61 | What `__str__` adds after the name is empty exactly when the members text is empty, or when both date texts are empty. The members text is empty when there are no members, or when there is one member whose head is empty. |
| Bands.ToString | music/band.py:47-61 | The string form starts with the band name and is the bare name exactly in the fall-through case. With members and both dates it is `n (m); formed: s; disbanded: e`. With members and only a start date it is `n (m); formed: s`. With members and only an end date it is `n m; disbanded: e`, with no parentheses. |
| Bands.MembersReadBack | music/band.py:49-59 | Whenever the string form is more than the name, splitting the members text at `, ` gives back every member's head, in member order. The members text follows `(` when there is a start date and a space otherwise. |
| Bands.Attributes | music/band.py:78 | `__dict__` holds exactly `name`, `members`, `start` and `end`, plus `_Band__i` once the band has been iterated. Each entry holds the corresponding field. |
| Bands.Equals | music/band.py:63-78 | `band == other` holds exactly when `other` is a band with the same name, members, start and end, and the same iteration-counter state. Comparing with anything else is false. |
| Bands.IterationBreaksEquality | music/band.py:100-101 | Iterating a band adds `_Band__i` to its `__dict__`, so it no longer equals a never-iterated copy, in either order of comparison. |
| Bands.IsDateValid | music/band.py:80-86 | A valid date passes exactly when its day number lies between that of 1954-07-05 and that of today, both ends included. |
| Bands.IsDateValidBoundaries | music/band.py:86 | Both ends of the range pass: today, and 1954-07-05 whenever that is not after today. The day after today fails. So does 1954-07-04, the day before the floor, which is the date the demo checks. |
| Bands.Iter | music/band.py:88-101 | `__iter__` keeps every field and (re)sets the counter to the first member. |
| Bands.Next | music/band.py:103-108 | `__next__` before any `__iter__` raises AttributeError. It returns a member exactly when the counter is still inside the members; that member is the one at the counter, and the counter advances by one. Otherwise it raises StopIteration and leaves the band unchanged. Every step keeps the other fields and the counter bound. |
| Bands.Run | music/band.py:103-108 | `n` successive `next()` calls give `n` results and keep the band's fields. |
| Bands.RunFromCursor | music/band.py:103-108 | From counter `c`, the calls return the members from index `c` on, in order. After that, every call raises StopIteration, and the counter stops at the number of members. |
| Bands.IterYieldsMembers | music/band.py:136-141 | After `iter(band)`, the `i`-th `next()` returns the `i`-th member. Once the members run out, it raises StopIteration. |
| Bands.IterRestarts | music/band.py:97-101 | Calling `iter()` again after any number of steps restarts at the first member and repeats the same results. |
| Bands.CollectMembers | music/band.py:136-141 | The demo's `while True: next(i)` loop, stopped by StopIteration, collects exactly the band's members in order and leaves the counter after the last one. |
| Dates.BeforeIsOrdinalOrder | music/band.py:86 | Python's field-by-field `<` on dates agrees with comparing day numbers, and equal day numbers mean equal dates. |
| Dates.NextDay | music/band.py:86 | The next day is a valid date after the given one, one day number later. |
| Dates.NothingBetweenDays | music/band.py:86 | No date lies strictly between a date and the next day, so the one-day-outside cases above are the nearest failures. |
| Strings.Join | music/band.py:49 | With a non-empty separator, the join is empty exactly when there are no parts or the only part is empty. It starts with the first part. |
| Strings.Find | music/band.py:49 | `find` returns the first position of the separator, or nothing exactly when the separator does not occur. |
| Strings.Split | music/band.py:49 | `s.split(sep)` has at least one piece, none of its pieces contains `sep`, and joining the pieces with `sep` gives back `s`. |
| Strings.SplitJoin | music/band.py:49 | Splitting a join of at least one part at `, ` gives back the parts, provided no part contains `, `. |
| Strings.Words | python/functions.py:231 | `str.split()` yields only non-empty tokens without whitespace. The three lemmas below fix which tokens those are. |
| Strings.WordsOfEmpty | python/functions.py:231 | `''.split()` has no tokens. |
| Strings.WordsOfWord | python/functions.py:231 | `split()` of a single non-empty whitespace-free string is that string alone. |
| Strings.WordsSplitAtSpace | python/functions.py:231 | Any whitespace character separates the tokens on its two sides: `split()` of `a + c + b` is `split()` of `a` followed by `split()` of `b`. Together with the two lemmas above, this determines `split()` on every string. |
| Strings.WordsOfJoin | python/functions.py:231-234 | `str.split()` of words joined by single spaces gives back the words. |
| Strings.ParseNatToString | python/functions.py:37 | Reading back the decimal digits of `str(n)` gives `n`. |
| Strings.IntToStringInjective | python/functions.py:37 | Different integers have different decimal strings. |
| PyValues.ToStr | python/functions.py:98-99 | `str()` of a truthy value is never empty, and `str()` of a string is empty exactly when the string is falsy. |
| PyValues.Get | python/functions.py:98-99 | `details.get(key)` is the stored value, or `None` when the key is absent. |
| Sorting.Sort | python/dictionaries.py:107-110 | The sort returns a permutation of its input. |
| Sorting.SortSorted | python/dictionaries.py:107-110 | Under a strict weak order, no element of the result is below an element before it. |
| Sorting.SortStable | python/dictionaries.py:107-110 | For any `c`, the elements equivalent to `c` keep their input order, as with Python's stable `sorted`. |
| Sorting.SortFacts | python/dictionaries.py:107-110 | Ordering and stability together, for any order that is a strict weak order. |
| Dictionaries.Get | python/dictionaries.py:107 | Lookup finds nothing exactly when the key is absent, and a value it finds belongs to an item of the dictionary. |
| Dictionaries.GetFindsItems | python/dictionaries.py:107 | In a dictionary, lookup returns `v` for `k` exactly when `(k, v)` is one of its items. |
| Dictionaries.AssignFacts | python/dictionaries.py:149 | After `d[k] = v`, `k` maps to `v` and every other key keeps its value. An existing key keeps its place; a new key is appended at the end. |
| Dictionaries.FromPairsGet | python/dictionaries.py:149 | A comprehension over pairs maps each key to the value of its last pair. |
| Dictionaries.FromPairsKeys | python/dictionaries.py:149 | Its keys are the pairs' keys in order of first occurrence. |
| Dictionaries.FromPairsDistinct | python/dictionaries.py:149 | Its keys are distinct. |
| Dictionaries.FromPairsSemantics | python/dictionaries.py:149 | The three facts above together: last value wins, first position is kept, no repeated key. |
| Dictionaries.FromPairsOfDict | python/dictionaries.py:107-110 | Rebuilding a dictionary from its own items, in any order that keeps the keys distinct, returns exactly those items in that order. |
| Dictionaries.LastValueAt | python/dictionaries.py:149 | A pair whose key does not occur later supplies that key's value. |
| Dictionaries.LastValueAbsent | python/dictionaries.py:149 | A key that no pair carries has no value. |
| Dictionaries.Zip | python/dictionaries.py:149 | `zip(l1, l2)` is as long as the shorter list and pairs the elements position by position. |
| Dictionaries.DictComprehension | python/dictionaries.py:149 | The comprehension's keys are distinct, and it has no more items than either list. `DictComprehensionFacts` states which items they are. |
| Dictionaries.DictComprehensionFacts | python/dictionaries.py:141-149 | `dict_comprehension(l1, l2)` has distinct keys: those of `l1` up to the shorter length, in order of first occurrence. A key takes the value paired with its last occurrence, and a key not in that part of `l1` is absent. |
| Dictionaries.ByKeyIsStrictWeak | python/dictionaries.py:107 | Comparing items by key with `<` on keys is a strict weak order whenever `<` on keys is one. |
| Dictionaries.ByValueIsStrictWeak | python/dictionaries.py:110 | The same holds for comparing items by value. |
| Dictionaries.SameItemsSameLookups | python/dictionaries.py:107-110 | Two dictionaries holding the same items give the same value for every key. |
| Dictionaries.InsertKeepsDistinct | python/dictionaries.py:107-110 | Inserting an item with a new key into sorted items keeps the keys distinct. |
| Dictionaries.SortKeepsDistinct | python/dictionaries.py:107-110 | Sorting a dictionary's items keeps the keys distinct. |
| Dictionaries.SortedItems | python/dictionaries.py:107-110 | Rebuilding from the sorted items yields exactly the sorted items: a permutation of the dictionary's items with distinct keys. |
| Dictionaries.SortDictionary | python/dictionaries.py:81-112 | The result holds the same items and gives the same value for every key. With `by` equal to `k` or `K` its items are ordered by key. With `v` or `V` they are ordered by value, and items with equal values keep their original order. With any other `by`, the dictionary comes back unchanged. |
| Functions.Token | python/functions.py:230-234 | Taking token `i` succeeds exactly when `split()` gives more than `i` tokens, and then returns the `i`-th token. Otherwise it raises IndexError. |
| Functions.ReturnFunction | python/functions.py:223-236 | The returned closure takes token 0 when the flag is set (`first`) and token 1 otherwise (`last`). Token 1 is the second token, not the final one. The closure succeeds exactly when there is at least one token (`first`) or at least two (`last`), and raises IndexError otherwise. |
| Functions.ReturnFunctionOnWords | python/functions.py:230-236 | On words joined by spaces, `first` returns the first word and `last` the second word, not the final one. Each raises IndexError when the words run out. |
| Functions.ReturnFunctionIrregularSpacing | python/functions.py:230-236 | For a name with a leading whitespace character and two whitespace characters between its words, `first` returns the first word and `last` the second. The whitespace characters may be any kind, tabs included. |
| Functions.ReturnFunctionExample | python/functions.py:241-242 | `return_function('Stephen Stills', False)()` returns `Stills`. |
| Functions.ReturnFunctionWithArgs | python/functions.py:246-260 | With no arguments, the closure returns the empty tuple when called with none, and raises TypeError when called with any. With arguments, the closure returns exactly its own call arguments. |
| Functions.ReturnFunctionWithArgsIgnoresArgs | python/functions.py:257-260 | Closures built from any two non-empty argument lists agree on every call. |
| Functions.MembersText | python/functions.py:96 | With members, the members text is `', '.join(members)`, for any member strings. It is empty exactly when there are no members or the only member is the empty string. |
| Functions.StatusWord | python/functions.py:97 | The status is `active` exactly when `is_active` holds, and `inactive` otherwise. |
| Functions.DetailsText | python/functions.py:98-99 | The details text is empty exactly when neither year is truthy, and starts with `formed: ` whenever the start year is truthy. |
| Functions.DetailsTextCases | python/functions.py:98-99 | The details text is empty exactly when neither year is truthy. With both years it is `formed: s; disbanded: e`, and with only the start year it is `formed: s`. With only the end year it is the bare `; disbanded: e`. |
| Functions.Line | python/functions.py:101-108 | Every one of the four lines starts with the band name and is longer than it. |
| Functions.LineIsOnePattern | python/functions.py:101-108 | The four branches are one pattern: the band, `: m` when there are members, ` (a)`, and `; d` when there are details. |
| Functions.UseAllCategoriesLine | python/functions.py:95-108 | The printed line follows that one pattern, built from the members text, status word and details text. |
| Functions.UseAllCategoriesMembersPrefix | python/functions.py:96-104 | With at least one member, other than the single empty member, the line starts with `band: ` followed by `', '.join(members)`, whatever the members contain. |
| Functions.UseAllCategoriesMembersReadBack | python/functions.py:96-104 | With at least one member, other than the single empty member, the line starts with `band: `. The text after it splits at `, ` back into the members, provided no member contains `, `. |
| Functions.UseAllCategoriesExample | python/functions.py:113 | The demo call with no members, `is_active=False`, start 1966 and end 1968 prints `Buffalo Springfield (inactive); formed: 1966; disbanded: 1968`. |
| Functions.DemonstrateAnnotations | python/functions.py:37 | The returned string starts with `demonstrate_annotations('`, continues with the title and ends with `)`. |
| Functions.LastQuote | python/functions.py:37 | In the returned text, the quote that closes the title is the last quote. |
| Functions.DemonstrateAnnotationsInjective | python/functions.py:37 | Different `(title, year)` arguments always give different returned strings, so both arguments can be read back. |
| Decorators.SimpleDecorator | python/decorators.py:70-75 | For every argument, the wrapper returns what the wrapped function returns. It prints one dashed line, then exactly the wrapped function's lines, then one more dashed line. |
| Decorators.SimpleDecoratorTwice | python/decorators.py:70-75 | Decorating twice returns the same value inside two nested dashed frames. |
| Decorators.MembersPart | python/decorators.py:115-116 | The members part is empty exactly when no argument follows the band name, or the only one is empty. Otherwise it is `Members: ` followed by `', '.join(args[1:])`, for any argument strings. |
| Decorators.MembersPartReadBack | python/decorators.py:115-116 | The members part is empty exactly when no argument follows the band name, or the only one is empty. Otherwise the text after `Members: ` splits at `, ` back into the arguments after the first, provided no argument after the first contains `, `. |
| Decorators.YearText | python/decorators.py:117-118 | A year's text is non-empty exactly when `kwargs.get` of its key is truthy, and then it is `str()` of that value. |
| Decorators.ActivePart | python/decorators.py:117-119 | The active part is present exactly when both `start` and `end` are present and truthy, and then it reads `Active: <str(start)>-<str(end)>`. |
| Decorators.SummaryLine | python/decorators.py:121-129 | There is no summary line exactly when both parts are empty. A printed line is never empty, and it starts with the members part whenever that part is present. |
| Decorators.SummaryLineIsJoin | python/decorators.py:121-129 | There is no summary line exactly when both parts are empty. Otherwise the line is the present parts joined by `; `. |
| Decorators.BandDetails | python/decorators.py:113-132 | For every argument, the wrapper returns the decorated function's value unchanged. The decorated function's lines come first, then the summary line when there is one, and nothing else. |
| Decorators.SummaryLineExample | python/decorators.py:152 | `print_band('Buffalo Springfield', start=1962, end=1970)` prints the summary `Active: 1962-1970`. |

## Left out

- Writing and reading bands through text files, `pickle` and `json_tricks` (music/band.py:309-396). This is I/O through foreign serialisers.
- `next_member` (music/band.py:146-155), which blocks on `input()`. The exception-handling demo cells print and have no results.
- `format_date` and `str(musician)` are parameters of `Bands.ToString`. Their definitions (util/utility.py and a `settings` module for the format; the `Musician` class) are not part of this model.
- The `date.today()` defaults of `Band.__init__`, which are evaluated once, when the class is defined. Callers pass both dates, and `is_date_valid` receives `today` as a parameter.
- Absent dates: a date attribute is either a `date`, which is always truthy, or absent (`None`). Other falsy values for `start`/`end` are not modelled.
- The class variable `Band.genres` is not modelled. No modelled operation reads it.
- Bands.IsDateValidBoundaries: requires `today` before 9999-12-31, because `datetime.date` has no later day.
- Bands.IsDateValid: its `ensures` speaks only of dates `datetime.date` can represent. The model accepts any triple of integers, and Python cannot build the others.
- `sort_dictionary` takes `<` on keys and on values as parameters. Sorting is proved correct for any strict weak order. The TypeError that Python's `<` raises on mixed key or value types is not modelled.
- Sorting.Sort: this is an insertion sort, not Python's Timsort. Only the result matters here: a stable ordering, which the model proves.
- The lines `demonstrate_annotations` and `use_all_categories_of_args` print besides their result are not modelled: the arguments, `__annotations__`, `__name__`, the docstring and `details`. Only the returned string and the final summary line are.
- `show_song`, `use_flexible_arg_list`, `pass_simple_function_as_parameter` and `pass_function_as_parameter` are not modelled. They are print-only demos outside the modelled core.
- `functools.wraps` metadata, which is runtime reflection.
- Functions.UseAllCategoriesLine: members are strings. A non-string member makes `', '.join(members)` raise TypeError, and that case is not modelled.
- Keyword values are integers, strings or `None` only (`PyValues.Value`). Python also accepts other objects for `start` and `end` in `use_all_categories_of_args` and `band_details`, printing them with their own `str()`: `start=True` gives `formed: True`, a `date` gives its ISO text. Those values are not modelled.
- Decorators.BandDetails: positional arguments are strings. A non-string member makes Python's `', '.join` raise TypeError, and that case is not modelled.
- Decorators.SimpleDecorator and Decorators.BandDetails: an exception raised by the wrapped function is not modelled. Python lets it propagate after the first dashed line, or before the summary.
- `str.split()` treats as whitespace the characters Python's `str.isspace` accepts. `str(int)` is modelled for decimal integers only, which is all the demos pass.
- The other scripts (python/lists.py, strings.py, expressions.py, statements.py, main.py, inception.py), util/utility.py's path helpers and the blank exercise scripts. They are console demos or filesystem plumbing with no results to specify.

=== FILE: band.dfy ===
/** The `Band` class of a music collection: a named group of members active
    between two dates, with name validation on construction, a four-way string
    form, equality over all instance attributes, a date-range check, and a
    restartable cursor-based iterator over the members.

    Musicians are values of a type parameter `M`; `str(musician)` and the
    date formatter `format_date` are passed in as `show` and `fmt`, because
    their definitions are not part of this model. */
module Bands {
  import opened Wrappers
  import opened Strings
  import opened Dates

  // ---------------------------------------------------------------------------
  // Errors and construction

  /** The object passed as a band's name. Python accepts any object there;
      `shown` is what `str()` prints for an object that is not a string. */
  datatype NameArg = StrName(s: string) | OtherName(shown: string)

  /** `str(name)`. */
  function ShowName(n: NameArg): string
  {
    match n
    case StrName(s) => s
    case OtherName(t) => t
  }

  /** `BandError` and its one subclass, `BandNameError`, which keeps the
      rejected name. */
  datatype BandError = BandNameError(name: NameArg)

  /** The exception's message, `e.args[0]`. */
  function Message(e: BandError): string
  {
    "'" + ShowName(e.name) + "' (must be min 2 characters long)"
  }

  /** A band. `cursor` is the private iteration counter: absent until
      `__iter__` first runs, and then one more instance attribute. */
  datatype Band<M> = Band(name: string, members: seq<M>, start: Option<Date>, end: Option<Date>, cursor: Option<nat>)

  /** What every band reachable through the public operations satisfies. */
  predicate Valid<M>(b: Band<M>)
  {
    |b.name| >= 2 && (b.cursor.Some? ==> b.cursor.value <= |b.members|)
  }

  /** Name, members and dates agree; only the cursor may differ. */
  ghost predicate SameFields<M>(a: Band<M>, b: Band<M>)
  {
    a.name == b.name && a.members == b.members && a.start == b.start && a.end == b.end
  }

  /** `Band(name, *members, start=start, end=end)`. The `date.today()`
      defaults are the caller's business: both dates are passed explicitly. */
  function New<M>(name: NameArg, members: seq<M>, start: Option<Date>, end: Option<Date>): (r: Result<Band<M>, BandError>)
    ensures r.Err? <==> name.OtherName? || |name.s| < 2
    ensures r.Err? ==> r.error.name == name
    ensures r.Err? ==> Message(r.error) == "'" + ShowName(name) + "' (must be min 2 characters long)"
    ensures r.Ok? ==> Valid(r.value) && r.value.cursor.None?
    ensures r.Ok? ==> r.value.name == ShowName(name) && r.value.members == members
    ensures r.Ok? ==> r.value.start == start && r.value.end == end
  {
    if name.OtherName? || |name.s| < 2 then Err(BandNameError(name))
    else Ok(Band(name.s, members, start, end, None))
  }

  // ---------------------------------------------------------------------------
  // String form

  /** The head of a member's display text: the first piece when the text is
      split at ", ", that is, everything before the first ", ". */
  function Head(s: string): (h: string)
    ensures |h| <= |s| && s[..|h|] == h
    ensures !Contains(h, ", ")
    ensures h == s || OccursAt(s, ", ", |h|)
  {
    var parts := Split(s, ", ");
    if |parts| > 1 then
      assert s == parts[0] + ", " + Join(", ", parts[1..]);
      assert s[|parts[0]|..|parts[0]| + 2] == ", ";
      parts[0]
    else
      parts[0]
  }

  /** The heads of the members' display texts, in member order. */
  function Heads<M>(ms: seq<M>, show: M -> string): (hs: seq<string>)
    ensures |hs| == |ms|
    ensures forall i | 0 <= i < |ms| :: hs[i] == Head(show(ms[i]))
  {
    if |ms| == 0 then [] else [Head(show(ms[0]))] + Heads(ms[1..], show)
  }

  /** The members part of the string form. */
  function MembersText<M>(ms: seq<M>, show: M -> string): string
  {
    if |ms| > 0 then Join(", ", Heads(ms, show)) else ""
  }

  /** A formatted date, or "" when the date is absent (falsy). */
  function DateText(d: Option<Date>, fmt: Date -> string): string
  {
    if d.Some? then fmt(d.value) else ""
  }

  /** What `str(band)` appends to the name, from the members text `m` and
      the formatted start and end dates `s` and `e`. */
  function Suffix(m: string, s: string, e: string): (t: string)
    ensures t == "" <==> m == "" || (s == "" && e == "")
  {
    if m != "" && s != "" && e != "" then " (" + m + "); formed: " + s + "; disbanded: " + e
    else if m != "" && s != "" then " (" + m + "); formed: " + s
    else if m != "" && e != "" then " " + m + "; disbanded: " + e
    else ""
  }

  /** `str(band)`. The members-and-end branch has no parentheses. */
  function ToString<M>(b: Band<M>, show: M -> string, fmt: Date -> string): (r: string)
    ensures
      var m, s, e := MembersText(b.members, show), DateText(b.start, fmt), DateText(b.end, fmt);
      && (|b.name| <= |r| && r[..|b.name|] == b.name)
      && (r == b.name <==> m == "" || (s == "" && e == ""))
      && (m != "" && s != "" && e != "" ==> r == b.name + (" (" + m + "); formed: " + s + "; disbanded: " + e))
      && (m != "" && s != "" && e == "" ==> r == b.name + (" (" + m + "); formed: " + s))
      && (m != "" && s == "" && e != "" ==> r == b.name + (" " + m + "; disbanded: " + e))
  {
    var t := Suffix(MembersText(b.members, show), DateText(b.start, fmt), DateText(b.end, fmt));
    assert (b.name + t)[..|b.name|] == b.name;
    b.name + t
  }

  /** The members text splits back on ", " into exactly the members' heads. */
  lemma MembersTextSplits<M>(ms: seq<M>, show: M -> string)
    requires |ms| > 0
    ensures Split(MembersText(ms, show), ", ") == Heads(ms, show)
  {
    CommaSpaceUnbordered();
    SplitJoin(Heads(ms, show), ", ");
  }

  /** Where the members text sits in a non-empty suffix: after " (" when
      there is a start date, after " " otherwise. */
  lemma SuffixHoldsMembers(m: string, s: string, e: string)
    requires Suffix(m, s, e) != ""
    ensures var t, k := Suffix(m, s, e), if s != "" then 2 else 1;
      && k + |m| <= |t| && t[k..k + |m|] == m
      && t[k - 1] == (if s != "" then '(' else ' ')
  {
    var t := Suffix(m, s, e);
    if s != "" {
      var rest := if e != "" then "); formed: " + s + "; disbanded: " + e else "); formed: " + s;
      assert t == " (" + m + rest;
      assert t[2..2 + |m|] == m;
    } else {
      var rest := "; disbanded: " + e;
      assert t == " " + m + rest;
      assert t[1..1 + |m|] == m;
    }
  }

  lemma ToStringUnfold<M>(b: Band<M>, show: M -> string, fmt: Date -> string)
    ensures ToString(b, show, fmt)
            == b.name + Suffix(MembersText(b.members, show), DateText(b.start, fmt), DateText(b.end, fmt))
  {
  }

  /** Where the members text starts in a string form that is more than the
      bare name. */
  function MembersOffset<M>(b: Band<M>, fmt: Date -> string): nat
  {
    if DateText(b.start, fmt) != "" then |b.name| + 2 else |b.name| + 1
  }

  lemma MembersInString<M>(b: Band<M>, show: M -> string, fmt: Date -> string)
    requires ToString(b, show, fmt) != b.name
    ensures var r, m, k := ToString(b, show, fmt), MembersText(b.members, show), MembersOffset(b, fmt);
      && 1 <= k && k + |m| <= |r| && r[k..k + |m|] == m
      && r[k - 1] == (if DateText(b.start, fmt) != "" then '(' else ' ')
  {
    var m, s, e := MembersText(b.members, show), DateText(b.start, fmt), DateText(b.end, fmt);
    var t := Suffix(m, s, e);
    SuffixHoldsMembers(m, s, e);
    var r := ToString(b, show, fmt);
    ToStringUnfold(b, show, fmt);
    var k := if s != "" then 2 else 1;
    var n := b.name;
    assert r[|n| + k..|n| + k + |m|] == t[k..k + |m|];
    assert r[|n| + k - 1] == t[k - 1];
  }

  /** Whenever the string form is more than the bare name, the members'
      heads can be read back from it, in order: after "(" when there is a
      start date, right after the name's space otherwise. */
  lemma MembersReadBack<M>(b: Band<M>, show: M -> string, fmt: Date -> string)
    requires ToString(b, show, fmt) != b.name
    ensures var r, m, k := ToString(b, show, fmt), MembersText(b.members, show), MembersOffset(b, fmt);
      && 1 <= k && k + |m| <= |r|
      && r[k - 1] == (if DateText(b.start, fmt) != "" then '(' else ' ')
      && Split(r[k..k + |m|], ", ") == Heads(b.members, show)
  {
    MembersInString(b, show, fmt);
    assert |b.members| > 0;
    MembersTextSplits(b.members, show);
  }

  // ---------------------------------------------------------------------------
  // Equality

  /** The value of one instance attribute. */
  datatype Attr<M> = NameAttr(name: string) | MembersAttr(members: seq<M>) | DateAttr(date: Option<Date>) | CursorAttr(i: nat)

  /** `band.__dict__`: four attributes, plus the mangled cursor `_Band__i`
      once `__iter__` has run. */
  function Attributes<M>(b: Band<M>): (attrs: map<string, Attr<M>>)
    ensures attrs.Keys == {"name", "members", "start", "end"} + (if b.cursor.Some? then {"_Band__i"} else {})
    ensures attrs["name"] == NameAttr(b.name) && attrs["members"] == MembersAttr(b.members)
    ensures attrs["start"] == DateAttr(b.start) && attrs["end"] == DateAttr(b.end)
    ensures b.cursor.Some? ==> attrs["_Band__i"] == CursorAttr(b.cursor.value)
  {
    var fields := map["name" := NameAttr(b.name), "members" := MembersAttr(b.members),
                      "start" := DateAttr(b.start), "end" := DateAttr(b.end)];
    if b.cursor.Some? then fields["_Band__i" := CursorAttr(b.cursor.value)] else fields
  }

  /** The other operand of `==`: a band or any other object. */
  datatype Object<M> = BandObject(band: Band<M>) | OtherObject

  /** `self == other`: equal attribute dictionaries when `other` is a band,
      false otherwise. */
  function Equals<M(==)>(self: Band<M>, other: Object<M>): (r: bool)
    ensures r <==> other.BandObject? && SameFields(self, other.band) && self.cursor == other.band.cursor
  {
    match other
    case OtherObject => false
    case BandObject(o) =>
      var a, c := Attributes(self), Attributes(o);
      if a == c then
        assert a["name"] == c["name"] && a["members"] == c["members"];
        assert a["start"] == c["start"] && a["end"] == c["end"];
        assert self.cursor.Some? <==> "_Band__i" in a;
        assert o.cursor.Some? <==> "_Band__i" in c;
        assert self.cursor.Some? ==> a["_Band__i"] == CursorAttr(self.cursor.value);
        true
      else
        false
  }

  /** Running `__iter__` on a band makes it unequal to an otherwise identical
      band that has never been iterated, and the other way round. */
  lemma IterationBreaksEquality<M>(a: Band<M>)
    requires a.cursor.None?
    ensures !Equals(Iter(a), BandObject(a))
    ensures !Equals(a, BandObject(Iter(a)))
  {
  }

  // ---------------------------------------------------------------------------
  // Date check

  /** The earliest accepted start date. The method's documentation speaks of
      1960, but the code compares against 1954-07-05. */
  const EarliestStart := Date(1954, 7, 5)

  /** `Band.is_date_valid(d)`, with the current date passed as `today`. */
  function IsDateValid(d: Date, today: Date): (r: bool)
    ensures ValidDate(d) && ValidDate(today) ==>
              (r <==> Ordinal(EarliestStart) <= Ordinal(d) <= Ordinal(today))
  {
    if ValidDate(d) && ValidDate(today) then
      BeforeIsOrdinalOrder(d, EarliestStart);
      BeforeIsOrdinalOrder(today, d);
      NotAfter(EarliestStart, d) && NotAfter(d, today)
    else
      NotAfter(EarliestStart, d) && NotAfter(d, today)
  }

  /** `IsDateValid` (the class's `is_date_valid`) holds at both ends of the
      range and fails one day outside either end. */
  lemma IsDateValidBoundaries(today: Date)
    requires ValidDate(today) && today != Date(MaxYear, 12, 31)
    ensures NotAfter(EarliestStart, today) ==> IsDateValid(today, today)
    ensures NotAfter(EarliestStart, today) ==> IsDateValid(EarliestStart, today)
    ensures !IsDateValid(NextDay(today), today)
    ensures NextDay(Date(1954, 7, 4)) == EarliestStart
    ensures !IsDateValid(Date(1954, 7, 4), today)
  {
  }

  // ---------------------------------------------------------------------------
  // Iteration

  /** What one `next()` call produces: a member, the `StopIteration` that
      ends the iteration, or the `AttributeError` Python raises when
      `__next__` runs before `__iter__` ever created the cursor. */
  datatype Step<M> = Item(member: M) | StopIteration | AttributeError

  /** `__iter__`: (re)sets the cursor to the first member. */
  function Iter<M>(b: Band<M>): (r: Band<M>)
    ensures SameFields(r, b) && r.cursor == Some(0)
    ensures Valid(b) ==> Valid(r)
  {
    b.(cursor := Some(0))
  }

  /** `__next__`: the member under the cursor, advancing it, or
      `StopIteration` once the cursor has passed the last member. */
  function Next<M>(b: Band<M>): (r: (Band<M>, Step<M>))
    ensures SameFields(r.0, b)
    ensures Valid(b) ==> Valid(r.0)
    ensures b.cursor.None? ==> r.1 == AttributeError
    ensures b.cursor.Some? && b.cursor.value >= |b.members| ==> r.1 == StopIteration
    ensures r.1.Item? <==> b.cursor.Some? && b.cursor.value < |b.members|
    ensures r.1.Item? ==> r.1.member == b.members[b.cursor.value] && r.0.cursor == Some(b.cursor.value + 1)
    ensures !r.1.Item? ==> r.0 == b
  {
    match b.cursor
    case None => (b, AttributeError)
    case Some(i) =>
      if i < |b.members| then (b.(cursor := Some(i + 1)), Item(b.members[i]))
      else (b, StopIteration)
  }

  /** `n` successive `next()` calls: the band afterwards and each call's result. */
  function Run<M>(b: Band<M>, n: nat): (r: (Band<M>, seq<Step<M>>))
    ensures |r.1| == n
    ensures SameFields(r.0, b)
    decreases n
  {
    if n == 0 then (b, [])
    else
      var (b1, step) := Next(b);
      var (b2, steps) := Run(b1, n - 1);
      (b2, [step] + steps)
  }

  /** From cursor `c`, `n` calls yield the members from index `c` on, in
      order, and then `StopIteration` on every further call. */
  lemma {:induction false} RunFromCursor<M>(b: Band<M>, n: nat)
    requires b.cursor.Some? && b.cursor.value <= |b.members|
    ensures var c := b.cursor.value;
      forall i | 0 <= i < n ::
        Run(b, n).1[i] == (if c + i < |b.members| then Item(b.members[c + i]) else StopIteration)
    ensures var c := b.cursor.value;
      Run(b, n).0.cursor == Some(if c + n < |b.members| then c + n else |b.members|)
    decreases n
  {
    if n > 0 {
      var (b1, step) := Next(b);
      RunFromCursor(b1, n - 1);
      var steps := Run(b, n).1;
      assert steps == [step] + Run(b1, n - 1).1;
    }
  }

  /** After `iter(band)`, the calls return the members in order and then
      signal completion on every later call. */
  lemma IterYieldsMembers<M>(b: Band<M>, n: nat)
    ensures forall i | 0 <= i < n ::
      Run(Iter(b), n).1[i] == (if i < |b.members| then Item(b.members[i]) else StopIteration)
  {
    RunFromCursor(Iter(b), n);
  }

  /** Calling `iter()` again restarts from the first member, however far the
      previous iteration went. */
  lemma IterRestarts<M>(b: Band<M>, n: nat)
    ensures Iter(Run(Iter(b), n).0) == Iter(b)
    ensures forall i | 0 <= i < n :: Run(Iter(Run(Iter(b), n).0), n).1[i] == Run(Iter(b), n).1[i]
  {
  }

  /** The usual consumption loop: `iter(band)`, then `next()` until
      `StopIteration`, collecting each member. */
  method CollectMembers<M>(b: Band<M>) returns (items: seq<M>, after: Band<M>)
    ensures items == b.members
    ensures SameFields(after, b) && after.cursor == Some(|b.members|)
  {
    var it := Iter(b);
    items := [];
    while true
      invariant SameFields(it, b)
      invariant |items| <= |b.members| && items == b.members[..|items|]
      invariant it.cursor == Some(|items|)
      decreases |b.members| - |items|
    {
      var (next, step) := Next(it);
      if step.Item? {
        items := items + [step.member];
        it := next;
      } else {
        break;
      }
    }
    after := it;
  }
}

=== FILE: dates.dfy ===
/** Calendar dates as Python's `datetime.date` treats them: proleptic
    Gregorian, years 1 to 9999, compared field by field. The day number
    (`date.toordinal()`) serves as an independent reference for that order
    and for what "one day earlier/later" means. */
module Dates {

  datatype Date = Date(year: int, month: int, day: int)

  const MinYear := 1
  const MaxYear := 9999

  predicate IsLeap(y: int)
  {
    y % 4 == 0 && (y % 100 != 0 || y % 400 == 0)
  }

  function DaysInYear(y: int): int
  {
    if IsLeap(y) then 366 else 365
  }

  function DaysInMonth(y: int, m: int): (n: int)
    requires 1 <= m <= 12
    ensures 28 <= n <= 31
  {
    if m == 2 then (if IsLeap(y) then 29 else 28)
    else if m == 4 || m == 6 || m == 9 || m == 11 then 30
    else 31
  }

  /** A date `datetime.date` accepts. */
  predicate ValidDate(d: Date)
  {
    MinYear <= d.year <= MaxYear && 1 <= d.month <= 12 && 1 <= d.day <= DaysInMonth(d.year, d.month)
  }

  /** `a < b` on dates: year, then month, then day. */
  predicate Before(a: Date, b: Date)
  {
    a.year < b.year
    || (a.year == b.year && a.month < b.month)
    || (a.year == b.year && a.month == b.month && a.day < b.day)
  }

  /** `a <= b` on dates. */
  predicate NotAfter(a: Date, b: Date)
  {
    !Before(b, a)
  }

  // ---------------------------------------------------------------------------
  // Day numbers

  /** Days in the years before `y`. */
  function DaysBeforeYear(y: int): nat
    requires y >= MinYear
  {
    if y == MinYear then 0 else DaysBeforeYear(y - 1) + DaysInYear(y - 1)
  }

  /** Days in the months of year `y` before month `m`. */
  function DaysBeforeMonth(y: int, m: int): nat
    requires 1 <= m <= 12
  {
    var leap := if IsLeap(y) then 1 else 0;
    if m == 1 then 0
    else if m == 2 then 31
    else [59, 90, 120, 151, 181, 212, 243, 273, 304, 334][m - 3] + leap
  }

  /** `date.toordinal()`: 1 for 0001-01-01, counting up one per day. */
  function Ordinal(d: Date): int
    requires ValidDate(d)
  {
    DaysBeforeYear(d.year) + DaysBeforeMonth(d.year, d.month) + d.day
  }

  lemma MonthStep(y: int, m: int)
    requires 1 <= m <= 12
    ensures m < 12 ==> DaysBeforeMonth(y, m) + DaysInMonth(y, m) == DaysBeforeMonth(y, m + 1)
    ensures m == 12 ==> DaysBeforeMonth(y, m) + DaysInMonth(y, m) == DaysInYear(y)
  {
  }

  lemma {:induction false} MonthsMonotone(y: int, m1: int, m2: int)
    requires 1 <= m1 < m2 <= 12
    ensures DaysBeforeMonth(y, m1) + DaysInMonth(y, m1) <= DaysBeforeMonth(y, m2)
    decreases m2 - m1
  {
    MonthStep(y, m1);
    if m1 + 1 < m2 {
      MonthsMonotone(y, m1 + 1, m2);
    }
  }

  lemma {:induction false} YearsMonotone(y1: int, y2: int)
    requires MinYear <= y1 < y2
    ensures DaysBeforeYear(y1) + DaysInYear(y1) <= DaysBeforeYear(y2)
    decreases y2 - y1
  {
    if y1 + 1 < y2 {
      YearsMonotone(y1 + 1, y2);
    }
  }

  lemma DaysWithinYear(d: Date)
    requires ValidDate(d)
    ensures DaysBeforeMonth(d.year, d.month) + d.day <= DaysInYear(d.year)
  {
    MonthStep(d.year, d.month);
    if d.month < 12 {
      MonthsMonotone(d.year, d.month, 12);
      MonthStep(d.year, 12);
    }
  }

  /** Comparing dates field by field agrees with comparing their day numbers. */
  lemma BeforeIsOrdinalOrder(a: Date, b: Date)
    requires ValidDate(a) && ValidDate(b)
    ensures Before(a, b) <==> Ordinal(a) < Ordinal(b)
    ensures a == b <==> Ordinal(a) == Ordinal(b)
  {
    if Before(a, b) {
      OrdinalIncreases(a, b);
    } else if Before(b, a) {
      OrdinalIncreases(b, a);
    }
  }

  lemma OrdinalIncreases(a: Date, b: Date)
    requires ValidDate(a) && ValidDate(b) && Before(a, b)
    ensures Ordinal(a) < Ordinal(b)
  {
    if a.year < b.year {
      DaysWithinYear(a);
      YearsMonotone(a.year, b.year);
    } else if a.month < b.month {
      MonthsMonotone(a.year, a.month, b.month);
    }
  }

  /** The day after `d`. */
  function NextDay(d: Date): (r: Date)
    requires ValidDate(d) && d != Date(MaxYear, 12, 31)
    ensures ValidDate(r) && Before(d, r)
    ensures Ordinal(r) == Ordinal(d) + 1
  {
    if d.day < DaysInMonth(d.year, d.month) then Date(d.year, d.month, d.day + 1)
    else if d.month < 12 then
      MonthStep(d.year, d.month);
      Date(d.year, d.month + 1, 1)
    else
      MonthStep(d.year, 12);
      Date(d.year + 1, 1, 1)
  }

  /** No date lies strictly between a date and the next one. */
  lemma NothingBetweenDays(d: Date, x: Date)
    requires ValidDate(d) && d != Date(MaxYear, 12, 31) && ValidDate(x)
    ensures !(Before(d, x) && Before(x, NextDay(d)))
  {
    BeforeIsOrdinalOrder(d, x);
    BeforeIsOrdinalOrder(x, NextDay(d));
  }
}

=== FILE: decorators.dfy ===
/** The two decorators of the decorators demo. A wrapped Python function is
    modelled as a function from its arguments to a `Call`: the value it
    returns together with the lines it prints, in order. */
module Decorators {
  import opened Wrappers
  import opened Strings
  import opened PyValues

  /** What one call of a function produces: its return value and its
      printed lines. */
  datatype Call<R> = Call(value: R, output: seq<string>)

  /** A call's arguments: `*args` (strings here, as in the demo) and
      `**kwargs`. */
  datatype Args = Args(positional: seq<string>, keywords: map<string, Value>)

  // ---------------------------------------------------------------------------
  // a_very_simple_decorator

  const Dashes := "------"

  /** `a_very_simple_decorator(f)`: the wrapper prints a dashed line, calls
      `f` with its own arguments, prints another dashed line and returns what
      `f` returned. */
  function SimpleDecorator<A(!new), R>(f: A -> Call<R>): (g: A -> Call<R>)
    ensures forall a :: g(a).value == f(a).value
    ensures forall a :: |g(a).output| == |f(a).output| + 2
    ensures forall a :: g(a).output[0] == Dashes && g(a).output[|g(a).output| - 1] == Dashes
    ensures forall a :: g(a).output[1..|g(a).output| - 1] == f(a).output
  {
    (a: A) => Call(f(a).value, [Dashes] + f(a).output + [Dashes])
  }

  /** Decorating twice nests the dashed frames: two lines before, two after. */
  lemma SimpleDecoratorTwice<A(!new), R>(f: A -> Call<R>, a: A)
    ensures SimpleDecorator(SimpleDecorator(f))(a)
            == Call(f(a).value, [Dashes, Dashes] + f(a).output + [Dashes, Dashes])
  {
    var inner := SimpleDecorator(f)(a);
    assert inner.output == [Dashes] + f(a).output + [Dashes];
    var outer := SimpleDecorator(SimpleDecorator(f))(a);
    assert outer.output == [Dashes] + inner.output + [Dashes];
  }

  // ---------------------------------------------------------------------------
  // band_details

  const MembersLabel := "Members: "

  /** `m`: `Members: ` and the positional arguments after the first joined by
      `', '`, or nothing when that join is empty. */
  function MembersPart(positional: seq<string>): (m: string)
    ensures m == "" || (|MembersLabel| < |m| && m[..|MembersLabel|] == MembersLabel)
    ensures m == "" <==> |positional| <= 1 || positional[1..] == [""]
    ensures m != "" ==> m[|MembersLabel|..] == Join(", ", positional[1..])
  {
    var joined := if |positional| > 0 then Join(", ", positional[1..]) else "";
    if joined != "" then MembersLabel + joined else ""
  }

  /** The members part is empty exactly when there is no member after the band
      name (or the only one is the empty string), and otherwise the members
      can be read back from it by splitting at `', '`. */
  lemma MembersPartReadBack(positional: seq<string>)
    requires forall i | 1 <= i < |positional| :: !Contains(positional[i], ", ")
    ensures MembersPart(positional) == "" <==> |positional| <= 1 || positional[1..] == [""]
    ensures MembersPart(positional) != "" ==>
              Split(MembersPart(positional)[|MembersLabel|..], ", ") == positional[1..]
  {
    if MembersPart(positional) != "" {
      var members := positional[1..];
      assert MembersPart(positional)[|MembersLabel|..] == Join(", ", members);
      forall i | 0 <= i < |members| ensures !Contains(members[i], ", ") {
        assert members[i] == positional[i + 1];
      }
      CommaSpaceUnbordered();
      SplitJoin(members, ", ");
    }
  }

  /** The text of the keyword argument `key` when its value is truthy, and
      nothing when it is falsy or absent. */
  function YearText(keywords: map<string, Value>, key: string): (t: string)
    ensures t != "" <==> Truthy(Get(keywords, key))
    ensures t != "" ==> t == ToStr(Get(keywords, key))
  {
    if Truthy(Get(keywords, key)) then ToStr(keywords[key]) else ""
  }

  /** `a`: `Active: <start>-<end>` when both years are truthy, else nothing. */
  function ActivePart(keywords: map<string, Value>): (a: string)
    ensures a != "" <==> Truthy(Get(keywords, "start")) && Truthy(Get(keywords, "end"))
    ensures a != "" ==>
              a == "Active: " + ToStr(Get(keywords, "start")) + "-" + ToStr(Get(keywords, "end"))
  {
    var start := YearText(keywords, "start");
    var end := YearText(keywords, "end");
    if start != "" && end != "" then "Active: " + start + "-" + end else ""
  }

  /** The line the wrapper prints after the call, if any: both parts joined
      by `; `, or the one that is present, or no line at all. */
  function SummaryLine(args: Args): (line: Option<string>)
    ensures line.None? <==> MembersPart(args.positional) == "" && ActivePart(args.keywords) == ""
    ensures line.Some? ==> line.value != ""
    ensures MembersPart(args.positional) != "" ==>
              |MembersPart(args.positional)| <= |line.value|
              && line.value[..|MembersPart(args.positional)|] == MembersPart(args.positional)
  {
    var m := MembersPart(args.positional);
    var a := ActivePart(args.keywords);
    if m != "" && a != "" then Some(m + "; " + a)
    else if m != "" then Some(m)
    else if a != "" && m == "" then Some(a)
    else None
  }

  /** The non-empty strings of `parts`, in order. */
  function NonEmpty(parts: seq<string>): (r: seq<string>)
    ensures forall i | 0 <= i < |r| :: r[i] != ""
  {
    if |parts| == 0 then []
    else (if parts[0] != "" then [parts[0]] else []) + NonEmpty(parts[1..])
  }

  /** The summary is the `'; '`-join of whichever parts are present, and there
      is no line exactly when neither is. */
  lemma SummaryLineIsJoin(args: Args)
    ensures var parts := NonEmpty([MembersPart(args.positional), ActivePart(args.keywords)]);
      && (SummaryLine(args).None? <==> |parts| == 0)
      && (SummaryLine(args).Some? ==> SummaryLine(args).value == Join("; ", parts))
  {
    var m := MembersPart(args.positional);
    var a := ActivePart(args.keywords);
    var parts := [m, a];
    assert parts[1..] == [a];
    assert NonEmpty([a]) == (if a != "" then [a] else []);
    if m != "" && a != "" {
      assert Join("; ", [m, a]) == m + "; " + a;
    }
  }

  /** `band_details(f)`: the wrapper computes the summary from its arguments,
      calls `f` (whose lines come first), prints the summary line if there is
      one and returns what `f` returned. */
  function BandDetails<R>(f: Args -> Call<R>): (g: Args -> Call<R>)
    ensures forall a :: g(a).value == f(a).value
    ensures forall a :: |f(a).output| <= |g(a).output| && g(a).output[..|f(a).output|] == f(a).output
    ensures forall a :: |g(a).output| == |f(a).output| + (if SummaryLine(a).Some? then 1 else 0)
    ensures forall a :: SummaryLine(a).Some? ==> g(a).output[|g(a).output| - 1] == SummaryLine(a).value
  {
    (a: Args) =>
      var v := f(a);
      Call(v.value, v.output + (if SummaryLine(a).Some? then [SummaryLine(a).value] else []))
  }

  lemma ActiveYearsAsText()
    ensures IntToString(1962) == "1962" && IntToString(1970) == "1970"
  {
    assert NatToString(1) == "1";
    assert NatToString(19) == "19";
    assert NatToString(196) == "196" && NatToString(197) == "197";
  }

  /** The second demo call, `print_band('Buffalo Springfield', start=1962,
      end=1970)`: no members, so the summary is the active part alone. */
  lemma SummaryLineExample()
    ensures SummaryLine(Args(["Buffalo Springfield"], map["start" := IntValue(1962), "end" := IntValue(1970)]))
            == Some("Active: 1962-1970")
  {
    var keywords := map["start" := IntValue(1962), "end" := IntValue(1970)];
    ActiveYearsAsText();
    assert YearText(keywords, "start") == "1962" && YearText(keywords, "end") == "1970";
    assert ActivePart(keywords) == "Active: " + "1962" + "-" + "1970" == "Active: 1962-1970";
    assert MembersPart(["Buffalo Springfield"]) == "";
    var args := Args(["Buffalo Springfield"], keywords);
    assert SummaryLine(args) == Some(ActivePart(keywords));
  }
}

=== FILE: dictionaries.dfy ===
/** Python dictionaries as the sorting and comprehension helpers use them:
    insertion-ordered, one value per key. A dictionary is the sequence of its
    items in insertion order. */
module Dictionaries {
  import opened Wrappers
  import opened Sorting

  type Dict<K, V> = seq<(K, V)>

  /** No key appears twice: the invariant of every dictionary. */
  ghost predicate DistinctKeys<K, V>(d: Dict<K, V>)
  {
    forall i, j | 0 <= i < j < |d| :: d[i].0 != d[j].0
  }

  /** `list(d.keys())`. */
  function Keys<K, V>(d: Dict<K, V>): (ks: seq<K>)
    ensures |ks| == |d|
    ensures forall i | 0 <= i < |d| :: ks[i] == d[i].0
  {
    if |d| == 0 then [] else [d[0].0] + Keys(d[1..])
  }

  /** `d.get(k)`. */
  function Get<K(==), V>(d: Dict<K, V>, k: K): (r: Option<V>)
    ensures r.None? <==> k !in Keys(d)
    ensures r.Some? ==> (k, r.value) in d
  {
    if |d| == 0 then None
    else if d[0].0 == k then Some(d[0].1)
    else
      assert Keys(d) == [d[0].0] + Keys(d[1..]);
      Get(d[1..], k)
  }

  /** In a dictionary, an item is present exactly when lookup finds its value. */
  lemma {:induction false} GetFindsItems<K(!new), V>(d: Dict<K, V>, k: K, v: V)
    requires DistinctKeys(d)
    ensures Get(d, k) == Some(v) <==> (k, v) in d
  {
    if |d| > 0 && (k, v) in d && d[0].0 != k {
      var i :| 0 <= i < |d| && d[i] == (k, v);
      assert d[1..][i - 1] == (k, v);
      GetFindsItems(d[1..], k, v);
    }
  }

  /** `d[k] = v`: replaces the value in place when `k` is present, appends
      the item otherwise. */
  function Assign<K(==), V>(d: Dict<K, V>, k: K, v: V): (r: Dict<K, V>)
    ensures |r| == |d| || r == d + [(k, v)]
  {
    if |d| == 0 then [(k, v)]
    else if d[0].0 == k then [(k, v)] + d[1..]
    else [d[0]] + Assign(d[1..], k, v)
  }

  /** After `d[k] = v`, `k` looks up `v`, every other key looks up what it
      did before, and the key order changes only by appending a new key. */
  lemma {:induction false} AssignFacts<K(!new), V>(d: Dict<K, V>, k: K, v: V)
    ensures Get(Assign(d, k, v), k) == Some(v)
    ensures forall k' | k' != k :: Get(Assign(d, k, v), k') == Get(d, k')
    ensures k in Keys(d) ==> Keys(Assign(d, k, v)) == Keys(d)
    ensures k !in Keys(d) ==> Assign(d, k, v) == d + [(k, v)]
  {
    if |d| > 0 {
      var r := Assign(d, k, v);
      var rest := if d[0].0 == k then d[1..] else Assign(d[1..], k, v);
      assert r[1..] == rest;
      assert Keys(d) == [d[0].0] + Keys(d[1..]);
      assert Keys(r) == [r[0].0] + Keys(rest);
      if d[0].0 != k {
        AssignFacts(d[1..], k, v);
        assert d == [d[0]] + d[1..];
      }
    }
  }

  /** `{k: v for k, v in pairs}`: one assignment per pair, in order. */
  function FromPairs<K(==), V>(pairs: seq<(K, V)>): (d: Dict<K, V>)
  {
    if |pairs| == 0 then []
    else
      var (k, v) := pairs[|pairs| - 1];
      Assign(FromPairs(pairs[..|pairs| - 1]), k, v)
  }

  /** Reference: the value paired with `k` at its last position in `pairs`. */
  function LastValue<K(==), V>(pairs: seq<(K, V)>, k: K): Option<V>
  {
    if |pairs| == 0 then None
    else if pairs[|pairs| - 1].0 == k then Some(pairs[|pairs| - 1].1)
    else LastValue(pairs[..|pairs| - 1], k)
  }

  /** Reference: the keys in order of first occurrence, repeats dropped. */
  function FirstOccurrences<K(==)>(ks: seq<K>): seq<K>
  {
    if |ks| == 0 then []
    else
      var firsts := FirstOccurrences(ks[..|ks| - 1]);
      if ks[|ks| - 1] in firsts then firsts else firsts + [ks[|ks| - 1]]
  }

  lemma {:induction false} FromPairsGet<K(!new), V>(pairs: seq<(K, V)>)
    ensures forall k :: Get(FromPairs(pairs), k) == LastValue(pairs, k)
  {
    if |pairs| > 0 {
      var init := pairs[..|pairs| - 1];
      FromPairsGet(init);
      var (k, v) := pairs[|pairs| - 1];
      AssignFacts(FromPairs(init), k, v);
    }
  }

  lemma KeysOfInit<K, V>(pairs: seq<(K, V)>)
    requires |pairs| > 0
    ensures Keys(pairs[..|pairs| - 1]) == Keys(pairs)[..|pairs| - 1]
    ensures Keys(pairs)[|pairs| - 1] == pairs[|pairs| - 1].0
  {
  }

  lemma KeysOfAppend<K, V>(d: Dict<K, V>, x: (K, V))
    ensures Keys(d + [x]) == Keys(d) + [x.0]
  {
  }

  lemma {:induction false} FromPairsKeys<K(!new), V>(pairs: seq<(K, V)>)
    ensures Keys(FromPairs(pairs)) == FirstOccurrences(Keys(pairs))
  {
    if |pairs| > 0 {
      var init := pairs[..|pairs| - 1];
      FromPairsKeys(init);
      KeysOfInit(pairs);
      var d := FromPairs(init);
      var (k, v) := pairs[|pairs| - 1];
      AssignFacts(d, k, v);
      if k !in Keys(d) {
        KeysOfAppend(d, (k, v));
      }
    }
  }

  lemma {:induction false} FromPairsDistinct<K(!new), V>(pairs: seq<(K, V)>)
    ensures DistinctKeys(FromPairs(pairs))
  {
    if |pairs| > 0 {
      var init := pairs[..|pairs| - 1];
      FromPairsDistinct(init);
      var d := FromPairs(init);
      var (k, v) := pairs[|pairs| - 1];
      AssignFacts(d, k, v);
      var r := Assign(d, k, v);
      if k in Keys(d) {
        forall i | 0 <= i < |r| ensures r[i].0 == d[i].0 {
          assert r[i].0 == Keys(r)[i];
        }
      } else {
        forall i | 0 <= i < |d| ensures d[i].0 != k {
          assert d[i].0 == Keys(d)[i];
        }
      }
    }
  }

  /** Building a dictionary from pairs: the last pair for a key wins, the key
      stays where it first appeared, and no key is repeated. */
  lemma FromPairsSemantics<K(!new), V>(pairs: seq<(K, V)>)
    ensures forall k :: Get(FromPairs(pairs), k) == LastValue(pairs, k)
    ensures Keys(FromPairs(pairs)) == FirstOccurrences(Keys(pairs))
    ensures DistinctKeys(FromPairs(pairs))
  {
    FromPairsGet(pairs);
    FromPairsKeys(pairs);
    FromPairsDistinct(pairs);
  }

  /** A dictionary rebuilt from its own items is itself. */
  lemma {:induction false} FromPairsOfDict<K(!new), V>(d: Dict<K, V>)
    requires DistinctKeys(d)
    ensures FromPairs(d) == d
  {
    if |d| > 0 {
      var init := d[..|d| - 1];
      FromPairsOfDict(init);
      assert d[|d| - 1].0 !in Keys(init);
      AssignFacts(init, d[|d| - 1].0, d[|d| - 1].1);
      assert d == init + [d[|d| - 1]];
    }
  }

  /** The pair at position `i` supplies the value for its key when no later
      pair repeats that key. */
  lemma {:induction false} LastValueAt<K(!new), V>(pairs: seq<(K, V)>, i: nat)
    requires i < |pairs|
    requires forall j | i < j < |pairs| :: pairs[j].0 != pairs[i].0
    ensures LastValue(pairs, pairs[i].0) == Some(pairs[i].1)
  {
    if i < |pairs| - 1 {
      LastValueAt(pairs[..|pairs| - 1], i);
    }
  }

  // ---------------------------------------------------------------------------
  // dict_comprehension

  /** `zip(l1, l2)`: pairs position by position, up to the shorter list. */
  function Zip<K, V>(l1: seq<K>, l2: seq<V>): (z: seq<(K, V)>)
    ensures |z| == if |l1| < |l2| then |l1| else |l2|
    ensures forall i | 0 <= i < |z| :: z[i] == (l1[i], l2[i])
  {
    if |l1| == 0 || |l2| == 0 then [] else [(l1[0], l2[0])] + Zip(l1[1..], l2[1..])
  }

  /** `dict_comprehension(l1, l2)`: one assignment per pair of the two lists
      taken position by position, up to the shorter one. */
  function DictComprehension<K(==, !new), V>(l1: seq<K>, l2: seq<V>): (d: Dict<K, V>)
    ensures DistinctKeys(d)
    ensures |d| <= |l1| && |d| <= |l2|
  {
    var z := Zip(l1, l2);
    FromPairsDistinct(z);
    FromPairsKeys(z);
    FirstOccurrencesShorter(Keys(z));
    FromPairs(z)
  }

  /** Dropping repeats never makes a sequence longer. */
  lemma {:induction false} FirstOccurrencesShorter<K(!new)>(ks: seq<K>)
    ensures |FirstOccurrences(ks)| <= |ks|
  {
    if |ks| > 0 {
      FirstOccurrencesShorter(ks[..|ks| - 1]);
    }
  }

  /** A key no pair carries has no value. */
  lemma {:induction false} LastValueAbsent<K(!new), V>(pairs: seq<(K, V)>, k: K)
    requires k !in Keys(pairs)
    ensures LastValue(pairs, k).None?
  {
    if |pairs| > 0 {
      var init := pairs[..|pairs| - 1];
      assert Keys(init) == Keys(pairs)[..|pairs| - 1];
      assert pairs[|pairs| - 1].0 == Keys(pairs)[|pairs| - 1];
      LastValueAbsent(init, k);
    }
  }

  /** The comprehension pairs the lists up to the shorter one: keys keep the
      order of their first occurrence in `l1`, a key repeated in `l1` takes
      the value at its last position, and no other key is present. */
  lemma DictComprehensionFacts<K(!new), V>(l1: seq<K>, l2: seq<V>)
    ensures DistinctKeys(DictComprehension(l1, l2))
    ensures var n := if |l1| < |l2| then |l1| else |l2|;
      && Keys(DictComprehension(l1, l2)) == FirstOccurrences(l1[..n])
      && (forall i | 0 <= i < n && (forall j | i < j < n :: l1[j] != l1[i]) ::
            Get(DictComprehension(l1, l2), l1[i]) == Some(l2[i]))
      && (forall k | k !in l1[..n] :: Get(DictComprehension(l1, l2), k).None?)
  {
    var z := Zip(l1, l2);
    var n := |z|;
    assert Keys(z) == l1[..n];
    FromPairsKeys(z);
    FromPairsDistinct(z);
    FromPairsGet(z);
    forall i | 0 <= i < n && (forall j | i < j < n :: l1[j] != l1[i])
      ensures Get(FromPairs(z), l1[i]) == Some(l2[i])
    {
      LastValueAt(z, i);
    }
    forall k | k !in l1[..n] ensures Get(FromPairs(z), k).None? {
      LastValueAbsent(z, k);
    }
  }

  // ---------------------------------------------------------------------------
  // sort_dictionary

  /** Compares items by their keys, as sorting with the key function that
      picks an item's first component does. */
  function ByKey<K, V>(lt: (K, K) -> bool): ((K, V), (K, V)) -> bool
  {
    (p: (K, V), q: (K, V)) => lt(p.0, q.0)
  }

  /** Compares items by their values, as sorting with the key function that
      picks an item's second component does. */
  function ByValue<K, V>(lt: (V, V) -> bool): ((K, V), (K, V)) -> bool
  {
    (p: (K, V), q: (K, V)) => lt(p.1, q.1)
  }

  lemma ByKeyIsStrictWeak<K(!new), V(!new)>(lt: (K, K) -> bool)
    ensures StrictWeakOrder(lt) ==> StrictWeakOrder(ByKey<K, V>(lt))
  {
    if StrictWeakOrder(lt) {
      var less := ByKey<K, V>(lt);
      forall a: (K, V) ensures !less(a, a) {
        assert !lt(a.0, a.0);
      }
      forall a: (K, V), b: (K, V) | less(a, b) ensures !less(b, a) {
        assert lt(a.0, b.0);
      }
      forall a: (K, V), b: (K, V), c: (K, V) | less(a, c) ensures less(a, b) || less(b, c) {
        assert lt(a.0, c.0);
        assert lt(a.0, b.0) || lt(b.0, c.0);
      }
    }
  }


  lemma ByValueIsStrictWeak<K(!new), V(!new)>(lt: (V, V) -> bool)
    ensures StrictWeakOrder(lt) ==> StrictWeakOrder(ByValue<K, V>(lt))
  {
    if StrictWeakOrder(lt) {
      var less := ByValue<K, V>(lt);
      forall a: (K, V) ensures !less(a, a) {
        assert !lt(a.1, a.1);
      }
      forall a: (K, V), b: (K, V) | less(a, b) ensures !less(b, a) {
        assert lt(a.1, b.1);
      }
      forall a: (K, V), b: (K, V), c: (K, V) | less(a, c) ensures less(a, b) || less(b, c) {
        assert lt(a.1, c.1);
        assert lt(a.1, b.1) || lt(b.1, c.1);
      }
    }
  }


  /** Two dictionaries holding the same items give the same lookups. */
  lemma SameItemsSameLookups<K(!new), V>(a: Dict<K, V>, b: Dict<K, V>)
    requires DistinctKeys(a) && DistinctKeys(b) && multiset(a) == multiset(b)
    ensures forall k :: Get(a, k) == Get(b, k)
  {
    forall k ensures Get(a, k) == Get(b, k) {
      if Get(a, k).Some? {
        GetFindsItems(a, k, Get(a, k).value);
        assert (k, Get(a, k).value) in multiset(b);
        GetFindsItems(b, k, Get(a, k).value);
      } else if Get(b, k).Some? {
        GetFindsItems(b, k, Get(b, k).value);
        assert (k, Get(b, k).value) in multiset(a);
        GetFindsItems(a, k, Get(b, k).value);
      }
    }
  }

  /** Inserting an item whose key is new keeps the keys distinct. */
  lemma {:induction false} InsertKeepsDistinct<K(!new), V>(x: (K, V), d: Dict<K, V>, less: ((K, V), (K, V)) -> bool)
    requires DistinctKeys(d) && x.0 !in Keys(d)
    ensures DistinctKeys(Insert(x, d, less))
  {
    if |d| > 0 && less(d[0], x) {
      var rest := Insert(x, d[1..], less);
      assert Keys(d) == [d[0].0] + Keys(d[1..]);
      InsertKeepsDistinct(x, d[1..], less);
      var r := Insert(x, d, less);
      assert r == [d[0]] + rest;
      forall j | 0 < j < |r| ensures r[j].0 != d[0].0 {
        assert r[j] in multiset(rest);
        if r[j] != x {
          assert r[j] in multiset(d[1..]);
          var k :| 0 <= k < |d[1..]| && d[1..][k] == r[j];
          assert d[k + 1] == r[j];
        }
      }
    } else if |d| > 0 {
      assert forall j | 0 <= j < |d| :: d[j].0 == Keys(d)[j];
    }
  }

  /** Sorting a dictionary's items keeps the keys distinct. */
  lemma {:induction false} SortKeepsDistinct<K(!new), V>(d: Dict<K, V>, less: ((K, V), (K, V)) -> bool)
    requires DistinctKeys(d)
    ensures DistinctKeys(Sort(d, less))
  {
    if |d| > 0 {
      SortKeepsDistinct(d[1..], less);
      var sorted := Sort(d[1..], less);
      forall i | 0 <= i < |sorted| ensures sorted[i].0 != d[0].0 {
        assert sorted[i] in multiset(d[1..]);
        var k :| 0 <= k < |d[1..]| && d[1..][k] == sorted[i];
        assert d[k + 1] == sorted[i];
      }
      InsertKeepsDistinct(d[0], sorted, less);
    }
  }

  /** Sorts the items by `less` and rebuilds the dictionary from them. */
  function SortedItems<K(==, !new), V>(d: Dict<K, V>, less: ((K, V), (K, V)) -> bool): (r: Dict<K, V>)
    requires DistinctKeys(d)
    ensures DistinctKeys(r) && multiset(r) == multiset(d)
    ensures r == Sort(d, less)
  {
    SortKeepsDistinct(d, less);
    FromPairsOfDict(Sort(d, less));
    FromPairs(Sort(d, less))
  }

  /** `sort_dictionary(d, by)`, the `by` argument as `order`, with `<` on keys and on values passed as
      `ltKey` and `ltValue`. */
  function SortDictionary<K(==, !new), V(!new)>(d: Dict<K, V>, order: string, ltKey: (K, K) -> bool, ltValue: (V, V) -> bool): (r: Dict<K, V>)
    requires DistinctKeys(d)
    ensures DistinctKeys(r) && multiset(r) == multiset(d)
    ensures forall k :: Get(r, k) == Get(d, k)
    ensures (order == "k" || order == "K") && StrictWeakOrder(ltKey) ==> SortedBy(r, ByKey(ltKey))
    ensures (order == "v" || order == "V") && StrictWeakOrder(ltValue) ==>
              && SortedBy(r, ByValue(ltValue))
              && forall c :: EquivalentTo(r, c, ByValue(ltValue)) == EquivalentTo(d, c, ByValue(ltValue))
    ensures order != "k" && order != "K" && order != "v" && order != "V" ==> r == d
  {
    var r :=
      if order == "k" || order == "K" then SortedItems(d, ByKey(ltKey))
      else if order == "v" || order == "V" then SortedItems(d, ByValue(ltValue))
      else d;
    SameItemsSameLookups(r, d);
    ByKeyIsStrictWeak<K, V>(ltKey);
    ByValueIsStrictWeak<K, V>(ltValue);
    SortFacts(d, ByKey(ltKey));
    SortFacts(d, ByValue(ltValue));
    r
  }
}

=== FILE: functions.dfy ===
/** The closure-returning helpers and the line builders of the functions demo:
    `return_function`, `return_function_with_args`, the line
    `use_all_categories_of_args` prints, and the string
    `demonstrate_annotations` returns. A Python function that raises is
    modelled as one returning `Err(exception)`. */
module Functions {
  import opened Wrappers
  import opened Strings
  import opened PyValues

  // ---------------------------------------------------------------------------
  // return_function

  /** `full_name.split()[i]`: the `i`-th whitespace token, or IndexError. */
  function Token(fullName: string, i: nat): (r: Result<string, Exception>)
    ensures r.Ok? <==> i < |Words(fullName)|
    ensures r.Ok? ==> r.value == Words(fullName)[i] && IsWord(r.value)
    ensures r.Err? ==> r.error == IndexError
  {
    var ws := Words(fullName);
    if i < |ws| then Ok(ws[i]) else Err(IndexError)
  }

  /** `return_function(full_name, first_name_flag)`: the closure `first` (token
      0) when the flag is set, otherwise `last`, which takes token 1. */
  function ReturnFunction(fullName: string, firstNameFlag: bool): (f: () -> Result<string, Exception>)
    ensures f().Ok? <==> |Words(fullName)| > (if firstNameFlag then 0 else 1)
    ensures f().Ok? ==> IsWord(f().value)
    ensures f().Err? ==> f().error == IndexError
    ensures f() == Token(fullName, if firstNameFlag then 0 else 1)
  {
    if firstNameFlag then () => Token(fullName, 0) else () => Token(fullName, 1)
  }

  /** On a name made of words joined by spaces, `first` returns the first word
      and `last` the second — not the final one — and both raise IndexError
      when the words run out. */
  lemma ReturnFunctionOnWords(ws: seq<string>)
    requires forall i | 0 <= i < |ws| :: IsWord(ws[i])
    ensures ReturnFunction(Join(" ", ws), true)() == if |ws| >= 1 then Ok(ws[0]) else Err(IndexError)
    ensures ReturnFunction(Join(" ", ws), false)() == if |ws| >= 2 then Ok(ws[1]) else Err(IndexError)
  {
    WordsOfJoin(ws);
  }

  /** `return_function('Stephen Stills', False)()` is `'Stills'`. */
  lemma ReturnFunctionExample()
    ensures ReturnFunction("Stephen Stills", false)() == Ok("Stills")
  {
    var ws := ["Stephen", "Stills"];
    assert IsWord(ws[0]) && IsWord(ws[1]);
    assert Join(" ", ws) == "Stephen Stills";
    ReturnFunctionOnWords(ws);
  }

  /** Leading and repeated whitespace of any kind make no tokens: for a
      name such as `' Neil \tYoung'`, `first` still returns the first word and
      `last` the second. */
  lemma ReturnFunctionIrregularSpacing(w1: string, w2: string, c1: char, c2: char, c3: char)
    requires IsWord(w1) && IsWord(w2) && IsSpace(c1) && IsSpace(c2) && IsSpace(c3)
    ensures var name := [c1] + w1 + [c2, c3] + w2;
      ReturnFunction(name, true)() == Ok(w1) && ReturnFunction(name, false)() == Ok(w2)
  {
    var name := [c1] + w1 + [c2, c3] + w2;
    IrregularSpacingWords(w1, w2, c1, c2, c3);
    assert Token(name, 0) == Ok(w1);
    assert Token(name, 1) == Ok(w2);
  }

  /** The tokens of such a name are the two words. */
  lemma IrregularSpacingWords(w1: string, w2: string, c1: char, c2: char, c3: char)
    requires IsWord(w1) && IsWord(w2) && IsSpace(c1) && IsSpace(c2) && IsSpace(c3)
    ensures Words([c1] + w1 + [c2, c3] + w2) == [w1, w2]
  {
    var t := [c3] + w2;
    var u := w1 + [c2] + t;
    assert [c1] + w1 + [c2, c3] + w2 == [c1] + u;
    WordsAfterSpace(c3, w2);
    WordsOfWord(w2);
    WordsSplitAtSpace(w1, c2, t);
    WordsOfWord(w1);
    WordsAfterSpace(c1, u);
  }

  // ---------------------------------------------------------------------------
  // return_function_with_args

  /** `return_function_with_args(*args)`: with no arguments the closure
      `empty_tuple`, which takes no parameters (calling it with any raises
      TypeError) and returns `()`; otherwise `tuple_of_args`, which returns
      its own call arguments. */
  function ReturnFunctionWithArgs<A(!new)>(args: seq<A>): (f: seq<A> -> Result<seq<A>, Exception>)
    ensures |args| == 0 ==> forall p :: f(p) == if |p| == 0 then Ok([]) else Err(TypeError)
    ensures |args| > 0 ==> forall p :: f(p) == Ok(p)
  {
    if |args| == 0 then
      (p: seq<A>) => if |p| == 0 then Ok([]) else Err(TypeError)
    else
      (p: seq<A>) => Ok(p)
  }

  /** The returned closure ignores the arguments it was built from: any two
      non-empty argument lists give closures that agree on every call. */
  lemma ReturnFunctionWithArgsIgnoresArgs<A(!new)>(args1: seq<A>, args2: seq<A>)
    requires |args1| > 0 && |args2| > 0
    ensures forall p :: ReturnFunctionWithArgs(args1)(p) == ReturnFunctionWithArgs(args2)(p)
  {
  }

  // ---------------------------------------------------------------------------
  // use_all_categories_of_args

  /** The members joined by a comma and a space, or nothing when there are
      no members. */
  function MembersText(members: seq<string>): (m: string)
    ensures m == "" <==> |members| == 0 || members == [""]
    ensures |members| > 0 ==> m == Join(", ", members)
  {
    if |members| > 0 then Join(", ", members) else ""
  }

  /** The status word: "active" when the band is active, "inactive"
      otherwise. */
  function StatusWord(isActive: bool): (a: string)
    ensures a == "active" || a == "inactive"
    ensures isActive <==> a == "active"
  {
    if isActive then "active" else "inactive"
  }

  /** The detail text: `formed: <start>` when `start` is truthy, then
      `; disbanded: <end>` appended when `end` is truthy — appended even when
      there is no `formed:` part. */
  function DetailsText(details: map<string, Value>): (d: string)
    ensures d == "" <==> !Truthy(Get(details, "start")) && !Truthy(Get(details, "end"))
    ensures Truthy(Get(details, "start")) ==> |d| > 8 && d[..8] == "formed: "
  {
    var start := Get(details, "start");
    var end := Get(details, "end");
    var formed := if Truthy(start) then "formed: " + ToStr(start) else "";
    if Truthy(end) then formed + "; disbanded: " + ToStr(end) else formed
  }

  /** The detail text is empty exactly when neither year is truthy; with only
      the end year it is the bare `; disbanded: …` tail. */
  lemma DetailsTextCases(details: map<string, Value>)
    ensures var start := Get(details, "start"); var end := Get(details, "end");
      && (DetailsText(details) == "" <==> !Truthy(start) && !Truthy(end))
      && (Truthy(start) && Truthy(end) ==>
            DetailsText(details) == "formed: " + ToStr(start) + "; disbanded: " + ToStr(end))
      && (Truthy(start) && !Truthy(end) ==> DetailsText(details) == "formed: " + ToStr(start))
      && (!Truthy(start) && Truthy(end) ==> DetailsText(details) == "; disbanded: " + ToStr(end))
  {
  }

  /** The four-way choice of lines 101-108 over the already computed parts. */
  function Line(b: string, m: string, a: string, d: string): (line: string)
    ensures |b| < |line| && line[..|b|] == b
  {
    if m != "" && d != "" then b + ": " + m + " (" + a + "); " + d
    else if m != "" then b + ": " + m + " (" + a + ")"
    else if d != "" then b + " (" + a + "); " + d
    else b + " (" + a + ")"
  }

  /** The four cases are one pattern with two optional parts: `: <members>`
      and `; <details>`. */
  lemma LineIsOnePattern(b: string, m: string, a: string, d: string)
    ensures Line(b, m, a, d) == b + (if m != "" then ": " + m else "") + (" (" + a + ")" + (if d != "" then "; " + d else ""))
  {
  }

  /** The line `use_all_categories_of_args(band, *members, is_active, **details)`
      prints: the band, then `: <members>` when there are members, then the
      status in parentheses, then `; <details>` when there are details. */
  function UseAllCategoriesLine(band: string, members: seq<string>, isActive: bool,
                                details: map<string, Value>): (line: string)
    ensures var m := MembersText(members); var d := DetailsText(details);
      line == band + (if m != "" then ": " + m else "") + (" (" + StatusWord(isActive) + ")"
              + (if d != "" then "; " + d else ""))
  {
    LineIsOnePattern(band, MembersText(members), StatusWord(isActive), DetailsText(details));
    Line(band, MembersText(members), StatusWord(isActive), DetailsText(details))
  }

  /** With members, the line starts with `<band>: <members>`. */
  lemma LineStartsWithMembers(b: string, m: string, a: string, d: string)
    requires m != ""
    ensures |b + ": " + m| <= |Line(b, m, a, d)|
    ensures Line(b, m, a, d)[..|b + ": " + m|] == b + ": " + m
  {
    var p := b + ": " + m;
    if d != "" {
      assert Line(b, m, a, d) == p + (" (" + a + "); " + d);
    } else {
      assert Line(b, m, a, d) == p + (" (" + a + ")");
    }
  }

  /** With at least one member, other than the single empty one, the line
      starts with `<band>: ` followed by the members joined by `', '`,
      whatever the members contain. */
  lemma UseAllCategoriesMembersPrefix(band: string, members: seq<string>, isActive: bool,
                                      details: map<string, Value>)
    requires |members| >= 1 && members != [""]
    ensures var line := UseAllCategoriesLine(band, members, isActive, details);
      var p := band + ": " + Join(", ", members);
      |p| <= |line| && line[..|p|] == p
  {
    var m := MembersText(members);
    LineStartsWithMembers(band, m, StatusWord(isActive), DetailsText(details));
  }

  /** The members can be read back from the line: after `<band>: ` the line
      splits at `', '` into exactly the members, provided no member contains
      `', '`. */
  lemma UseAllCategoriesMembersReadBack(band: string, members: seq<string>, isActive: bool,
                                        details: map<string, Value>)
    requires |members| >= 1 && members != [""]
    requires forall i | 0 <= i < |members| :: !Contains(members[i], ", ")
    ensures var line := UseAllCategoriesLine(band, members, isActive, details);
      var m := Join(", ", members);
      && |band| + 2 + |m| <= |line|
      && line[..|band| + 2] == band + ": "
      && Split(line[|band| + 2..|band| + 2 + |m|], ", ") == members
  {
    var m := MembersText(members);
    assert m == Join(", ", members) && m != "";
    var line := UseAllCategoriesLine(band, members, isActive, details);
    assert line == Line(band, m, StatusWord(isActive), DetailsText(details));
    LineStartsWithMembers(band, m, StatusWord(isActive), DetailsText(details));
    var p := band + ": " + m;
    assert line[..|band| + 2] == p[..|band| + 2] == band + ": ";
    assert line[|band| + 2..|band| + 2 + |m|] == p[|band| + 2..] == m;
    CommaSpaceUnbordered();
    SplitJoin(members, ", ");
  }

  lemma YearsAsText()
    ensures IntToString(1966) == "1966" && IntToString(1968) == "1968"
  {
    assert NatToString(1) == "1";
    assert NatToString(19) == "19";
    assert NatToString(196) == "196";
  }

  lemma DetailsExample(details: map<string, Value>)
    requires details == map["start" := IntValue(1966), "end" := IntValue(1968)]
    ensures DetailsText(details) == "formed: 1966; disbanded: 1968"
  {
    YearsAsText();
    assert Get(details, "start") == IntValue(1966) && Get(details, "end") == IntValue(1968);
  }

  lemma LineExample()
    ensures Line("Buffalo Springfield", "", "inactive", "formed: 1966; disbanded: 1968")
            == "Buffalo Springfield (inactive); formed: 1966; disbanded: 1968"
  {
    var d := "formed: 1966; disbanded: 1968";
    assert d != "";
    assert Line("Buffalo Springfield", "", "inactive", d) == "Buffalo Springfield" + " (" + "inactive" + "); " + d;
  }

  /** The first call in the demo: no members, inactive, 1966 to 1968. */
  lemma UseAllCategoriesExample()
    ensures UseAllCategoriesLine("Buffalo Springfield", [], false,
                                 map["start" := IntValue(1966), "end" := IntValue(1968)])
            == "Buffalo Springfield (inactive); formed: 1966; disbanded: 1968"
  {
    var details := map["start" := IntValue(1966), "end" := IntValue(1968)];
    DetailsExample(details);
    LineExample();
    assert MembersText([]) == "" && StatusWord(false) == "inactive";
    assert UseAllCategoriesLine("Buffalo Springfield", [], false, details)
           == Line("Buffalo Springfield", "", "inactive", "formed: 1966; disbanded: 1968");
  }

  // ---------------------------------------------------------------------------
  // demonstrate_annotations

  const AnnotationsPrefix := "demonstrate_annotations('"

  /** The string `demonstrate_annotations(title, year)` returns:
      `demonstrate_annotations('<title>', <year>)`. */
  function DemonstrateAnnotations(title: string, year: int): (r: string)
    ensures |r| > |AnnotationsPrefix| + |title| + 3
    ensures r[..|AnnotationsPrefix|] == AnnotationsPrefix
    ensures r[|AnnotationsPrefix|..|AnnotationsPrefix| + |title|] == title
    ensures r[|r| - 1] == ')'
  {
    AnnotationsPrefix + title + "', " + IntToString(year) + ")"
  }

  /** In `title + "', " + str(year)` the quote right after the title is the
      last quote. */
  lemma LastQuote(title: string, year: int)
    ensures var s := title + ("', " + IntToString(year));
      && s[|title|] == '\''
      && forall k | |title| < k < |s| :: s[k] != '\''
  {
    var tail := "', " + IntToString(year);
    var s := title + tail;
    forall k | |title| < k < |s| ensures s[k] != '\'' {
      assert s[k] == tail[k - |title|];
      if k - |title| >= 3 {
        assert tail[k - |title|] == IntToString(year)[k - |title| - 3];
      }
    }
  }

  /** Where the title ends is fixed by the quote that follows it. */
  lemma TitleLength(t1: string, y1: int, t2: string, y2: int)
    requires t1 + ("', " + IntToString(y1)) == t2 + ("', " + IntToString(y2))
    ensures |t1| == |t2|
  {
    LastQuote(t1, y1);
    LastQuote(t2, y2);
  }

  /** Between the fixed prefix and the closing parenthesis lies
      `title + "', " + str(year)`. */
  lemma AnnotationsMiddle(title: string, year: int)
    ensures var r := DemonstrateAnnotations(title, year);
      r[|AnnotationsPrefix|..|r| - 1] == title + ("', " + IntToString(year))
  {
    var mid := title + ("', " + IntToString(year));
    assert DemonstrateAnnotations(title, year) == AnnotationsPrefix + mid + ")";
  }

  /** A title followed by `"', " + str(year)` splits back into its two
      pieces. */
  lemma SplitAtTitle(title: string, year: int)
    ensures var s := title + ("', " + IntToString(year));
      s[..|title|] == title && s[|title| + 3..] == IntToString(year)
  {
  }

  /** The returned string determines both arguments: different calls return
      different strings. */
  lemma DemonstrateAnnotationsInjective(t1: string, y1: int, t2: string, y2: int)
    requires DemonstrateAnnotations(t1, y1) == DemonstrateAnnotations(t2, y2)
    ensures t1 == t2 && y1 == y2
  {
    AnnotationsMiddle(t1, y1);
    AnnotationsMiddle(t2, y2);
    TitleLength(t1, y1, t2, y2);
    SplitAtTitle(t1, y1);
    SplitAtTitle(t2, y2);
    IntToStringInjective(y1, y2);
  }
}

=== FILE: pyvalues.dfy ===
/** The few Python values that reach the modelled code through keyword
    arguments (`**kwargs`), with the truthiness and `str()` rendering the code
    branches on, and the built-in exceptions it can raise. */
module PyValues {
  import opened Strings

  /** A keyword-argument value: an integer (the sources pass years such as
      1966), a string, or `None`. */
  datatype Value = IntValue(i: int) | StrValue(s: string) | NoneValue

  /** Python truthiness: zero, the empty string and `None` are false. */
  predicate Truthy(v: Value)
  {
    match v
    case IntValue(i) => i != 0
    case StrValue(s) => |s| > 0
    case NoneValue => false
  }

  /** `str(v)`. A truthy value never prints as the empty string. */
  function ToStr(v: Value): (r: string)
    ensures Truthy(v) ==> r != ""
    ensures v.StrValue? ==> (r == "" <==> !Truthy(v))
  {
    match v
    case IntValue(i) => IntToString(i)
    case StrValue(s) => s
    case NoneValue => "None"
  }

  /** `kwargs.get(key)`: the value under `key`, or `None` when absent. */
  function Get(kwargs: map<string, Value>, key: string): (r: Value)
    ensures key !in kwargs ==> r == NoneValue
    ensures key in kwargs ==> r == kwargs[key]
  {
    if key in kwargs then kwargs[key] else NoneValue
  }

  /** Built-in exceptions the modelled functions can raise. */
  datatype Exception = IndexError | TypeError
}

=== FILE: sorting.dfy ===
/** A stable sort over sequences: what Python's `sorted(items, key=f)`
    returns when `<` on the keys is a strict weak order. The result is a
    permutation of the input, ordered, and elements that compare equal keep
    their input order. */
module Sorting {

  /** `less` is a strict weak order: irreflexive, asymmetric and negatively
      transitive (if `a < c`, any `b` is above `a` or below `c`). Python's `<`
      on integers, on strings and on dates is one. */
  ghost predicate StrictWeakOrder<T(!new)>(less: (T, T) -> bool)
  {
    && (forall a :: !less(a, a))
    && (forall a, b :: less(a, b) ==> !less(b, a))
    && (forall a, b, c :: less(a, c) ==> less(a, b) || less(b, c))
  }

  /** Neither element is below the other. */
  predicate Equivalent<T>(less: (T, T) -> bool, a: T, b: T)
  {
    !less(a, b) && !less(b, a)
  }

  /** No element is below an element before it. */
  ghost predicate SortedBy<T>(s: seq<T>, less: (T, T) -> bool)
  {
    forall i, j | 0 <= i < j < |s| :: !less(s[j], s[i])
  }

  /** Inserts `x` before the first element that is not below it. */
  function Insert<T>(x: T, s: seq<T>, less: (T, T) -> bool): (r: seq<T>)
    ensures multiset(r) == multiset(s) + multiset{x}
    ensures |r| == |s| + 1
  {
    if |s| == 0 then [x]
    else if less(s[0], x) then
      assert s == [s[0]] + s[1..];
      [s[0]] + Insert(x, s[1..], less)
    else [x] + s
  }

  /** Stable insertion sort. */
  function Sort<T>(s: seq<T>, less: (T, T) -> bool): (r: seq<T>)
    ensures multiset(r) == multiset(s)
    ensures |r| == |s|
  {
    if |s| == 0 then []
    else
      assert s == [s[0]] + s[1..];
      Insert(s[0], Sort(s[1..], less), less)
  }

  lemma {:induction false} InsertSorted<T(!new)>(x: T, s: seq<T>, less: (T, T) -> bool)
    requires StrictWeakOrder(less) && SortedBy(s, less)
    ensures SortedBy(Insert(x, s, less), less)
  {
    if |s| > 0 {
      var r := Insert(x, s, less);
      if less(s[0], x) {
        var rest := Insert(x, s[1..], less);
        InsertSorted(x, s[1..], less);
        assert r == [s[0]] + rest;
        forall j | 0 < j < |r| ensures !less(r[j], s[0]) {
          assert r[j] in multiset(rest);
          if r[j] != x {
            assert r[j] in multiset(s[1..]);
            var k :| 0 <= k < |s[1..]| && s[1..][k] == r[j];
            assert s[k + 1] == r[j];
          }
        }
      } else {
        forall j | 0 <= j < |s| ensures !less(s[j], x) {
          if j > 0 {
            assert !less(s[j], s[0]);
          }
        }
      }
    }
  }

  /** The sort orders its result. */
  lemma {:induction false} SortSorted<T(!new)>(s: seq<T>, less: (T, T) -> bool)
    requires StrictWeakOrder(less)
    ensures SortedBy(Sort(s, less), less)
  {
    if |s| > 0 {
      SortSorted(s[1..], less);
      InsertSorted(s[0], Sort(s[1..], less), less);
    }
  }

  /** The elements of `s` equivalent to `c`, in their order in `s`. */
  function EquivalentTo<T>(s: seq<T>, c: T, less: (T, T) -> bool): seq<T>
  {
    if |s| == 0 then []
    else (if Equivalent(less, s[0], c) then [s[0]] else []) + EquivalentTo(s[1..], c, less)
  }

  /** Of two elements one strictly below the other, at most one is
      equivalent to any given `c`. */
  lemma BelowNotBothEquivalent<T(!new)>(a: T, b: T, c: T, less: (T, T) -> bool)
    requires StrictWeakOrder(less) && less(a, b)
    ensures !(Equivalent(less, a, c) && Equivalent(less, b, c))
  {
    assert less(a, c) || less(c, b);
  }

  lemma {:induction false} InsertKeepsEquivalents<T(!new)>(x: T, s: seq<T>, c: T, less: (T, T) -> bool)
    requires StrictWeakOrder(less)
    ensures EquivalentTo(Insert(x, s, less), c, less)
            == (if Equivalent(less, x, c) then [x] else []) + EquivalentTo(s, c, less)
  {
    var r := Insert(x, s, less);
    if |s| == 0 {
      assert r[1..] == [];
    } else if less(s[0], x) {
      var rest := Insert(x, s[1..], less);
      assert r[1..] == rest;
      InsertKeepsEquivalents(x, s[1..], c, less);
      BelowNotBothEquivalent(s[0], x, c, less);
      assert EquivalentTo(r, c, less)
             == (if Equivalent(less, s[0], c) then [s[0]] else []) + EquivalentTo(rest, c, less);
      assert EquivalentTo(s, c, less)
             == (if Equivalent(less, s[0], c) then [s[0]] else []) + EquivalentTo(s[1..], c, less);
    } else {
      assert r[1..] == s;
    }
  }

  /** The sort is stable: for every `c`, the elements equivalent to `c` appear
      in the result in the same order as in the input. */
  lemma {:induction false} SortStable<T(!new)>(s: seq<T>, c: T, less: (T, T) -> bool)
    requires StrictWeakOrder(less)
    ensures EquivalentTo(Sort(s, less), c, less) == EquivalentTo(s, c, less)
  {
    if |s| > 0 {
      SortStable(s[1..], c, less);
      InsertKeepsEquivalents(s[0], Sort(s[1..], less), c, less);
    }
  }

  /** Under a strict weak order the sort is ordered and stable. */
  lemma SortFacts<T(!new)>(s: seq<T>, less: (T, T) -> bool)
    ensures StrictWeakOrder(less) ==> SortedBy(Sort(s, less), less)
    ensures StrictWeakOrder(less) ==>
              forall c :: EquivalentTo(Sort(s, less), c, less) == EquivalentTo(s, c, less)
  {
    if StrictWeakOrder(less) {
      SortSorted(s, less);
      forall c ensures EquivalentTo(Sort(s, less), c, less) == EquivalentTo(s, c, less) {
        SortStable(s, c, less);
      }
    }
  }
}

=== FILE: strings.dfy ===
/** The parts of Python's `str` type the modelled code relies on:
    `sep.join(parts)`, `s.split(sep)`, `s.split()` and `str(n)` for integers.
    Strings are sequences of code points. */
module Strings {
  import opened Wrappers

  /** `sep.join(parts)`. */
  function Join(sep: string, parts: seq<string>): (r: string)
    ensures |sep| > 0 ==> (r == "" <==> |parts| == 0 || (|parts| == 1 && parts[0] == ""))
    ensures |parts| > 0 ==> |parts[0]| <= |r| && r[..|parts[0]|] == parts[0]
  {
    if |parts| == 0 then ""
    else if |parts| == 1 then parts[0]
    else parts[0] + sep + Join(sep, parts[1..])
  }

  // ---------------------------------------------------------------------------
  // Searching for a separator

  /** `sep` occurs in `s` starting at index `i`. */
  predicate OccursAt(s: string, sep: string, i: nat)
  {
    i + |sep| <= |s| && s[i..i + |sep|] == sep
  }

  /** `sep in s`. */
  ghost predicate Contains(s: string, sep: string)
  {
    exists i: nat :: OccursAt(s, sep, i)
  }

  /** The first index at or after `from` where `sep` occurs in `s`. */
  function FindFrom(s: string, sep: string, from: nat): (r: Option<nat>)
    requires |sep| > 0
    ensures r.None? ==> forall i: nat :: from <= i ==> !OccursAt(s, sep, i)
    ensures r.Some? ==> from <= r.value && OccursAt(s, sep, r.value)
    ensures r.Some? ==> forall i: nat :: from <= i < r.value ==> !OccursAt(s, sep, i)
    decreases |s| - from
  {
    if from + |sep| > |s| then None
    else if OccursAt(s, sep, from) then Some(from)
    else FindFrom(s, sep, from + 1)
  }

  /** `s.find(sep)`, with `None` in place of -1. */
  function Find(s: string, sep: string): (r: Option<nat>)
    requires |sep| > 0
    ensures r.None? <==> !Contains(s, sep)
    ensures r.Some? ==> OccursAt(s, sep, r.value)
    ensures r.Some? ==> forall i: nat :: i < r.value ==> !OccursAt(s, sep, i)
  {
    var r := FindFrom(s, sep, 0);
    if r.Some? then assert OccursAt(s, sep, r.value); r else r
  }

  /** An occurrence inside a prefix of `s` is an occurrence in `s`. */
  lemma OccursInPrefix(s: string, sep: string, n: nat, i: nat)
    requires n <= |s| && OccursAt(s[..n], sep, i)
    ensures OccursAt(s, sep, i)
  {
    assert s[..n][i..i + |sep|] == s[i..i + |sep|];
  }

  /** `s.split(sep)` for a non-empty separator: the pieces between occurrences. */
  function Split(s: string, sep: string): (r: seq<string>)
    requires |sep| > 0
    ensures |r| >= 1
    ensures Join(sep, r) == s
    ensures forall i | 0 <= i < |r| :: !Contains(r[i], sep)
    decreases |s|
  {
    match Find(s, sep)
    case None => [s]
    case Some(i) =>
      var rest := Split(s[i + |sep|..], sep);
      var r := [s[..i]] + rest;
      assert r[1..] == rest;
      assert s[..i] + sep + s[i + |sep|..] == s by {
        assert s[i..i + |sep|] == sep;
        assert s == s[..i] + s[i..i + |sep|] + s[i + |sep|..];
      }
      assert !Contains(s[..i], sep) by {
        forall j: nat | OccursAt(s[..i], sep, j) ensures false {
          OccursInPrefix(s, sep, i, j);
        }
      }
      r
  }

  /** No proper suffix of `sep` is also a prefix of it, so two occurrences
      of `sep` never overlap. */
  ghost predicate Unbordered(sep: string)
  {
    forall k | 0 < k < |sep| :: sep[k..] != sep[..|sep| - k]
  }

  lemma CommaSpaceUnbordered()
    ensures Unbordered(", ")
  {
    assert ", "[1..] == " " && ", "[..1] == ",";
  }

  /** In `p + sep + rest`, the first occurrence of an unbordered `sep` is the
      one right after `p` when `p` does not contain `sep`. */
  lemma {:induction false} FindAfterPiece(p: string, sep: string, rest: string)
    requires |sep| > 0 && Unbordered(sep) && !Contains(p, sep)
    ensures Find(p + sep + rest, sep) == Some(|p|)
  {
    var s := p + sep + rest;
    assert s[|p|..|p| + |sep|] == sep;
    assert OccursAt(s, sep, |p|);
    forall j: nat | j < |p| ensures !OccursAt(s, sep, j) {
      if j + |sep| <= |p| {
        assert s[j..j + |sep|] == p[j..j + |sep|];
        assert !OccursAt(p, sep, j);
      } else {
        // an occurrence here would straddle the end of p, making sep bordered
        var k := |p| - j;
        var w := s[j..j + |sep|];
        assert w[k..] == sep[..|sep| - k];
        assert sep[k..] != sep[..|sep| - k];
        assert w[k..] != sep[k..];
      }
    }
  }

  /** Splitting undoes joining when no piece contains the unbordered separator. */
  lemma {:induction false} SplitJoin(parts: seq<string>, sep: string)
    requires |sep| > 0 && Unbordered(sep) && |parts| >= 1
    requires forall i | 0 <= i < |parts| :: !Contains(parts[i], sep)
    ensures Split(Join(sep, parts), sep) == parts
    decreases |parts|
  {
    if |parts| == 1 {
      assert Find(parts[0], sep).None?;
    } else {
      var rest := Join(sep, parts[1..]);
      FindAfterPiece(parts[0], sep, rest);
      var s := parts[0] + sep + rest;
      assert s[|parts[0]| + |sep|..] == rest;
      assert s[..|parts[0]|] == parts[0];
      SplitJoin(parts[1..], sep);
      assert parts == [parts[0]] + parts[1..];
    }
  }

  // ---------------------------------------------------------------------------
  // Splitting on runs of whitespace

  /** The characters `str.isspace` accepts, which `str.split()` splits on. */
  predicate IsSpace(c: char)
  {
    c == ' ' || '\t' <= c <= '\r' || '\U{1c}' <= c <= '\U{1f}'
    || c == '\U{85}' || c == '\U{a0}' || c == '\U{1680}'
    || '\U{2000}' <= c <= '\U{200a}' || c == '\U{2028}' || c == '\U{2029}'
    || c == '\U{202f}' || c == '\U{205f}' || c == '\U{3000}'
  }

  /** A token `str.split()` can produce: non-empty and free of whitespace. */
  predicate IsWord(w: string)
  {
    |w| > 0 && forall i | 0 <= i < |w| :: !IsSpace(w[i])
  }

  /** Length of the longest whitespace-free prefix of `s`. */
  function WordLength(s: string): (n: nat)
    ensures n <= |s|
    ensures forall i | 0 <= i < n :: !IsSpace(s[i])
    ensures n < |s| ==> IsSpace(s[n])
  {
    if |s| == 0 || IsSpace(s[0]) then 0 else 1 + WordLength(s[1..])
  }

  /** `s.split()`: the maximal whitespace-free runs of `s`, in order. */
  function Words(s: string): (ws: seq<string>)
    ensures forall i | 0 <= i < |ws| :: IsWord(ws[i])
    decreases |s|
  {
    if |s| == 0 then []
    else if IsSpace(s[0]) then Words(s[1..])
    else
      var n := WordLength(s);
      [s[..n]] + Words(s[n..])
  }

  lemma {:induction false} WordLengthOfWord(w: string, rest: string)
    requires IsWord(w) && (|rest| == 0 || IsSpace(rest[0]))
    ensures WordLength(w + rest) == |w|
    decreases |w|
  {
    assert (w + rest)[1..] == w[1..] + rest;
    if |w| > 1 {
      WordLengthOfWord(w[1..], rest);
    }
  }

  /** A run of non-space characters stops where `s` stops, even when more
      text follows, provided that text starts with whitespace. */
  lemma {:induction false} WordLengthPrefix(s: string, t: string)
    requires WordLength(s) < |s| || (|t| > 0 && IsSpace(t[0]))
    ensures WordLength(s + t) == WordLength(s)
    decreases |s|
  {
    if |s| > 0 && !IsSpace(s[0]) {
      assert (s + t)[1..] == s[1..] + t;
      WordLengthPrefix(s[1..], t);
    }
  }

  /** `split()` of the empty string has no tokens. */
  lemma WordsOfEmpty()
    ensures Words("") == []
  {
  }

  /** `split()` of a single word is that word. */
  lemma WordsOfWord(w: string)
    requires IsWord(w)
    ensures Words(w) == [w]
  {
    WordLengthOfWord(w, "");
    assert w + "" == w;
    assert w[..|w|] == w && w[|w|..] == "";
  }

  /** Leading whitespace does not change `split()`. */
  lemma WordsAfterSpace(c: char, s: string)
    requires IsSpace(c)
    ensures Words([c] + s) == Words(s)
  {
    assert ([c] + s)[1..] == s;
  }

  /** A whitespace character separates the tokens on its two sides: together
      with the two lemmas above this determines `split()` on every string. */
  lemma {:induction false} WordsSplitAtSpace(a: string, c: char, b: string)
    requires IsSpace(c)
    ensures Words(a + [c] + b) == Words(a) + Words(b)
    decreases |a|
  {
    var s := a + [c] + b;
    if |a| == 0 {
      assert s == [c] + b && s[1..] == b;
    } else if IsSpace(a[0]) {
      assert s[1..] == a[1..] + [c] + b;
      WordsSplitAtSpace(a[1..], c, b);
    } else {
      var k := WordLength(a);
      WordLengthPrefix(a, [c] + b);
      assert s == a + ([c] + b);
      assert s[..k] == a[..k];
      assert s[k..] == a[k..] + [c] + b;
      WordsSplitAtSpace(a[k..], c, b);
    }
  }

  /** Splitting a single-space join of words gives back the words. */
  lemma {:induction false} WordsOfJoin(ws: seq<string>)
    requires forall i | 0 <= i < |ws| :: IsWord(ws[i])
    ensures Words(Join(" ", ws)) == ws
    decreases |ws|
  {
    if |ws| == 1 {
      WordLengthOfWord(ws[0], "");
      assert ws[0][|ws[0]|..] == "";
      assert ws[0][..|ws[0]|] == ws[0];
    } else if |ws| > 1 {
      var rest := Join(" ", ws[1..]);
      var s := ws[0] + " " + rest;
      WordLengthOfWord(ws[0], " " + rest);
      assert s == ws[0] + (" " + rest);
      assert s[..|ws[0]|] == ws[0];
      assert s[|ws[0]|..] == " " + rest;
      assert (" " + rest)[1..] == rest;
      WordsOfJoin(ws[1..]);
      assert ws == [ws[0]] + ws[1..];
    }
  }

  // ---------------------------------------------------------------------------
  // Decimal rendering of integers

  predicate IsDigit(c: char)
  {
    '0' <= c <= '9'
  }

  function DigitChar(d: nat): (c: char)
    requires d < 10
    ensures IsDigit(c)
  {
    ('0' as int + d) as char
  }

  /** `str(n)` for a non-negative integer. */
  function NatToString(n: nat): (r: string)
    ensures |r| > 0
    ensures forall i | 0 <= i < |r| :: IsDigit(r[i])
  {
    if n < 10 then [DigitChar(n)] else NatToString(n / 10) + [DigitChar(n % 10)]
  }

  /** The value of a string of decimal digits; the inverse of `NatToString`. */
  function ParseDigits(s: string): nat
    requires forall i | 0 <= i < |s| :: IsDigit(s[i])
  {
    if |s| == 0 then 0
    else
      assert IsDigit(s[|s| - 1]);
      ParseDigits(s[..|s| - 1]) * 10 + (s[|s| - 1] as int - '0' as int)
  }

  lemma {:induction false} ParseNatToString(n: nat)
    ensures ParseDigits(NatToString(n)) == n
  {
    if n >= 10 {
      var r := NatToString(n);
      assert r[..|r| - 1] == NatToString(n / 10);
      ParseNatToString(n / 10);
    }
  }

  /** `str(i)` for any integer. */
  function IntToString(i: int): (r: string)
    ensures |r| > 0
    ensures forall k | 0 <= k < |r| :: IsDigit(r[k]) || r[k] == '-'
  {
    if i < 0 then "-" + NatToString(-i) else NatToString(i)
  }

  /** `str(i)` starts with a minus sign exactly for negative integers. */
  lemma IntToStringSign(i: int)
    ensures IntToString(i)[0] == '-' <==> i < 0
  {
    if i >= 0 {
      assert IsDigit(IntToString(i)[0]);
    }
  }

  /** Different integers print differently. */
  lemma IntToStringInjective(a: int, b: int)
    requires IntToString(a) == IntToString(b)
    ensures a == b
  {
    IntToStringSign(a);
    IntToStringSign(b);
    if a < 0 {
      assert NatToString(-a) == IntToString(a)[1..];
      assert NatToString(-b) == IntToString(b)[1..];
      ParseNatToString(-a);
      ParseNatToString(-b);
    } else {
      ParseNatToString(a);
      ParseNatToString(b);
    }
  }
}

=== FILE: wrappers.dfy ===
/** Failure-carrying datatypes shared by the whole model: Python's `None`
    alternative and an exception raised in place of a return value. */
module Wrappers {

  /** A value that may be absent (Python `None`). */
  datatype Option<+T> = None | Some(value: T)

  /** A returned value, or the exception raised instead of returning. */
  datatype Result<+T, +E> = Ok(value: T) | Err(error: E)
}
